=== FILE: README.md ===
# Neo4j schema export, modelled in Dafny

The repository holds three scripts. Each asks a Neo4j store for its implicit
schema and writes it out:

- the label catalog;
- for every label, the distinct property keys of its nodes;
- for every label, the distinct incoming and outgoing relationship types, each
  with the label list of the node at the other end.

The three outputs are:

- `neo4j_export_labels_properties_relationships.py` writes a six-column CSV that
  includes node counts;
- `csvFileForDatabaseAndVisualization.py` builds five-column rows and parses the
  relationship columns back into directed edges, one network graph per label;
- `extract_neo4j_data_to_excel.py` writes one spreadsheet sheet per label. The
  sheets are sorted by label name, and the four lists stand side by side,
  padded with empty cells.

This project models the parts of those scripts that do not depend on the driver,
the files or the plotting library. The modules are:

- `Sequences`: `Option`, and first-occurrence `Distinct`, the order `DISTINCT`
  results are taken in.
- `Text`: the Python string operations the scripts use. These are `sep.join`,
  `str.split`, `sep in s`, `rstrip`, the slice `s[:n]` and string `<`.
- `GraphStore`: the in-memory property graph and what each Cypher query answers
  over it. This covers the label catalog, node counts, distinct property keys
  and distinct (type, connected labels) pairs per direction. It also holds the
  text an entry is exported as, `TYPE (A, B)`, and a store that names which
  queries fail.
- `CsvExport`: the six-column export with its error policy.
- `Visualisation`: the five-column rows with no error handling, the edge parser,
  the directed graph keyed by the ordered pair of end labels, and the plotting
  loop.
- `Spreadsheet`: the spreadsheet export. It covers collecting records, the
  stable sort by name, the truncated sheet title and the padded rows.

The scripts handle query failures in different ways, and the model follows the
code:

- **Catalog and counts (CSV script).** The catalog query and every count query
  share one `try` block. A single failing count query therefore empties the
  whole catalog, and nothing is written.
- **Relationships (CSV and spreadsheet scripts).** The incoming and outgoing
  queries share one `try` block. If either one fails, that label gets empty
  lists in both directions.
- **Properties.** A failing property query empties only that label's property
  list.
- **Visualisation script.** It catches nothing, so any failing query ends the
  run. A parse error ends the plotting loop, and images already saved are kept.
- **Multi-label nodes.** A connected node with several labels is kept as one
  compound label list in every export. The visualisation parser then splits
  that list apart again (see Findings).
- **Unlabeled nodes.** A connected node with no labels is exported as `T ()`.
  When the type `T` is plain, the visualisation parser turns that into an
  edge to or from a node named "" (see Findings).

## Model

| member | source | states |
|---|---|---|
| Sequences.Distinct | neo4j_export_labels_properties_relationships.py:59-65 | `RETURN DISTINCT`: no duplicates, and a value is in the result exactly when it is in the input |
| Sequences.DistinctOnto | neo4j_export_labels_properties_relationships.py:59-65 | Distinct continued after values already seen: keeps the seen prefix, adds each new value once, no duplicates |
| Text.Find | csvFileForDatabaseAndVisualization.py:137 | the first occurrence of the separator at or after the start, or -1 when there is none |
| Text.ContainsIsFind | csvFileForDatabaseAndVisualization.py:142 | `sep in s` holds exactly when `s.find(sep)` is not -1 |
| Text.Join | neo4j_export_labels_properties_relationships.py:147-150 | `", ".join`: a non-empty list's join begins with its first piece |
| Text.Split | csvFileForDatabaseAndVisualization.py:137-138 | `split`: at least one piece, no piece contains the separator, and joining the pieces gives the string back |
| Text.SplitCuts | csvFileForDatabaseAndVisualization.py:142 | split gives more than one piece exactly when `sep in s` |
| Text.SplitJoin | csvFileForDatabaseAndVisualization.py:137 | for a non-empty list, splitting its join gives the pieces back when no piece contains the two-character separator |
| Text.JoinConcat | neo4j_export_labels_properties_relationships.py:142-151 | joining `a + b` puts one separator between the two joins only when both lists are non-empty |
| Text.RStrip | csvFileForDatabaseAndVisualization.py:144 | `rstrip(")")`: the result is a prefix that does not end in ')', and only ')' characters were removed |
| Text.RStripOne | csvFileForDatabaseAndVisualization.py:151 | stripping the closing ')' appended to a label that does not end in ')' gives the label back |
| Text.Truncate | extract_neo4j_data_to_excel.py:112 | `s[:n]`: a prefix of at most n characters, and the whole string when it is shorter |
| Text.BelowIrreflexive | extract_neo4j_data_to_excel.py:105 | Python string `<` is irreflexive |
| Text.BelowTransitive | extract_neo4j_data_to_excel.py:105 | Python string `<` is transitive |
| Text.BelowTotal | extract_neo4j_data_to_excel.py:105 | any two different strings are ordered one way or the other |
| GraphStore.LabelStream | neo4j_export_labels_properties_relationships.py:41-42 | the labels of all nodes, repeated: a label appears exactly when some node carries it |
| GraphStore.Catalog | neo4j_export_labels_properties_relationships.py:41-42 | `db.labels()`: no duplicates, and a label is listed exactly when some node carries it |
| GraphStore.NodesCarrying | neo4j_export_labels_properties_relationships.py:46 | the nodes matching `(n:L)`, each as often as it occurs in the graph, and no others |
| GraphStore.Count | neo4j_export_labels_properties_relationships.py:46-47 | `count(n)` is at most the number of nodes |
| GraphStore.CountZero | neo4j_export_labels_properties_relationships.py:46-47 | the count is zero exactly when no node carries the label |
| GraphStore.KeyStream | neo4j_export_labels_properties_relationships.py:60-63 | the keys of the nodes carrying the label, repeated: a key appears exactly when such a node has it |
| GraphStore.Properties | neo4j_export_labels_properties_relationships.py:59-65 | no duplicates, and a key is listed exactly when at least one node carrying the label has it |
| GraphStore.PropertiesOfUnusedLabel | neo4j_export_labels_properties_relationships.py:59-65 | a label no node carries has no properties |
| GraphStore.Relationships | neo4j_export_labels_properties_relationships.py:79-86 | no duplicate (type, connected labels) pairs, and a pair is listed exactly when some relationship in that direction gives it |
| GraphStore.EntryStream | neo4j_export_labels_properties_relationships.py:79-86 | an entry is produced exactly when some relationship matching the label in that direction gives it |
| GraphStore.OutgoingPairs | neo4j_export_labels_properties_relationships.py:83-86 | outgoing: exactly the pairs of type and target label list over relationships whose source carries the label |
| GraphStore.IncomingPairs | neo4j_export_labels_properties_relationships.py:79-82 | incoming: exactly the pairs of type and source label list over relationships whose target carries the label |
| GraphStore.SelfLoopBothWays | neo4j_export_labels_properties_relationships.py:79-86 | a self-loop on a node carrying the label is listed as incoming and as outgoing |
| GraphStore.ListedUnderEveryLabel | neo4j_export_labels_properties_relationships.py:79-86 | a relationship whose near end carries several labels is listed under each of them, with the full far-end label list |
| GraphStore.RelationshipsOfUnusedLabel | neo4j_export_labels_properties_relationships.py:79-86 | a label no node carries has no relationships in either direction |
| GraphStore.FormatDecomposes | neo4j_export_labels_properties_relationships.py:93-100 | an entry's text is the type, " (", the labels joined by ", ", then ")"; for a non-empty label list in which no label contains ", ", splitting the middle gives the labels back |
| GraphStore.Format | neo4j_export_labels_properties_relationships.py:93-100 | an entry's text begins with its type and " (", ends in ")", and is at least three characters longer than the type |
| GraphStore.FormattedRelationships | neo4j_export_labels_properties_relationships.py:79-100 | the formatted answer holds a text exactly when some relationship matching the label in that direction formats to it |
| CsvExport.CountEach | neo4j_export_labels_properties_relationships.py:45-48 | the count loop fails exactly when some label's count fails; otherwise it gives each label with its count, in order |
| CsvExport.LabelsWithCount | neo4j_export_labels_properties_relationships.py:35-54 | empty exactly when the catalog query fails, the catalog is empty, or any count fails; otherwise every catalog label with its count |
| CsvExport.DistinctProperties | neo4j_export_labels_properties_relationships.py:57-74 | a failing query gives []; otherwise the keys have no duplicates, and a key is listed exactly when some node carrying the label has it |
| CsvExport.AllRelationships | neo4j_export_labels_properties_relationships.py:77-108 | if either direction's query fails, both lists are empty; otherwise each list holds exactly the texts of the relationships matching the label in its direction, and no text is empty |
| CsvExport.JoinEmpty | neo4j_export_labels_properties_relationships.py:147-150 | a joined field of non-empty entries is empty exactly when the list is empty |
| CsvExport.RowFor | neo4j_export_labels_properties_relationships.py:142-151 | the Relationships field is the incoming field, then ", ", then the outgoing field when both are non-empty, and otherwise the non-empty one |
| CsvExport.Export | neo4j_export_labels_properties_relationships.py:126-152 | nothing is written when the counted catalog is empty; otherwise one row per catalog label, in catalog order, carrying that label's node count and its joined lists |
| CsvExport.CountFailureWritesNothing | neo4j_export_labels_properties_relationships.py:38-54 | one failing count query, for any label, empties the whole export |
| CsvExport.RowUnderFailure | neo4j_export_labels_properties_relationships.py:66-74 | once a property or relationship query fails, only that label's row changes, and only the fields that query feeds become empty |
| CsvExport.ListsUnderFailure | neo4j_export_labels_properties_relationships.py:57-108 | one more failing query leaves every other label's lists alone and empties only the lists it feeds |
| CsvExport.PerLabelFailureIsolated | neo4j_export_labels_properties_relationships.py:87-108 | a failing per-label query keeps the export and its row count; every other label's row is unchanged |
| CsvExport.CountEachUnaffected | neo4j_export_labels_properties_relationships.py:45-48 | only count-query failures affect the count loop |
| Visualisation.RowFor | csvFileForDatabaseAndVisualization.py:99-111 | a label's row fails exactly when one of its queries fails |
| Visualisation.RowsFor | csvFileForDatabaseAndVisualization.py:99-111 | the label loop fails exactly when some label's query fails; otherwise one row per label, in order, with that label's joined properties and relationship entries |
| Visualisation.Collect | csvFileForDatabaseAndVisualization.py:96-111 | the run fails exactly when the catalog or any label query fails; otherwise one row per catalog label holding its joined distinct properties, incoming, outgoing and incoming ++ outgoing entries |
| Visualisation.PiecesJoin | csvFileForDatabaseAndVisualization.py:137-138 | an empty cell has no pieces; otherwise the pieces join back to the cell and none holds ", " |
| Visualisation.ParsePiece | csvFileForDatabaseAndVisualization.py:142-144 | no edge exactly when the piece lacks " ("; an unpack error exactly when " (" cuts it into more than two parts; a parsed edge exactly when into two |
| Visualisation.ParsedPieceCuts | csvFileForDatabaseAndVisualization.py:143-144 | a parsed piece is its type, " (", and a rest that strips to the connected label, with no other " (" on either side |
| Visualisation.EdgeFor | csvFileForDatabaseAndVisualization.py:145-152 | an incoming edge runs from the connected label to the label, an outgoing one the other way, with the type and direction as attributes |
| Visualisation.PieceEdges | csvFileForDatabaseAndVisualization.py:141-152 | the column's edges fail exactly when some piece raises; otherwise an edge comes from exactly the pieces that parse |
| Visualisation.RowEdgesFail | csvFileForDatabaseAndVisualization.py:136-152 | a row's parse raises exactly when a piece of either column holds " (" twice or more |
| Visualisation.RowEdgesMembers | csvFileForDatabaseAndVisualization.py:136-152 | a row's edges are exactly the edges of the parsing pieces of its incoming and its outgoing column |
| Visualisation.AddEdges | csvFileForDatabaseAndVisualization.py:145-152 | `add_edge` over the edges: the graph's pairs are the old pairs plus the pair of each edge |
| Visualisation.AddEdgesElsewhere | csvFileForDatabaseAndVisualization.py:145-152 | edges for other pairs leave a pair's type and direction unchanged |
| Visualisation.LastEdgeWins | csvFileForDatabaseAndVisualization.py:133-152 | the last edge for an ordered pair decides that pair's type and direction |
| Visualisation.LabelGraph | csvFileForDatabaseAndVisualization.py:133-152 | a row's graph fails exactly when parsing fails; otherwise its pairs are exactly the parsed edges' pairs |
| Visualisation.Plot | csvFileForDatabaseAndVisualization.py:129-173 | images are saved in row order; the loop stops at the first row whose parse raises; it runs to the end only when none raises |
| Visualisation.SaveUntilFailure | csvFileForDatabaseAndVisualization.py:129-173 | images are saved in order for parsed labels, and the first label whose parse raised ends the loop |
| Visualisation.Script | csvFileForDatabaseAndVisualization.py:96-173 | a failing catalog or label query saves nothing and ends the run; otherwise the plotting loop runs over the collected rows, so an image per catalog label in catalog order, each holding that row's graph, up to the first row whose parse raises |
| Visualisation.ParseHead | csvFileForDatabaseAndVisualization.py:143-144 | a piece with one " (" parses to the type before it and the rstripped text after it |
| Visualisation.SplitHead | csvFileForDatabaseAndVisualization.py:143 | a piece with exactly one " (" is cut into the texts on either side of it |
| Visualisation.PlainPiece | csvFileForDatabaseAndVisualization.py:142 | a piece without " (" adds no edge |
| Visualisation.EntryRoundTrip | csvFileForDatabaseAndVisualization.py:84-91 | a single-label entry with plain text is one piece, and it parses back to its type and label |
| Visualisation.NoEdgePieces | csvFileForDatabaseAndVisualization.py:141-152 | pieces that contain no " (" add no edges |
| Visualisation.MultiLabelSplit | csvFileForDatabaseAndVisualization.py:137-138 | with a plain type and plain labels, a multi-label entry splits into the type with the first label, the middle labels, and the last label with ")" |
| Visualisation.MultiLabelKeepsFirst | csvFileForDatabaseAndVisualization.py:137-152 | with a plain type and plain labels, a multi-label entry adds only the edge for its first connected label |
| Visualisation.TrailingCommaTypeLost | csvFileForDatabaseAndVisualization.py:137-152 | with an otherwise plain type and a plain label, an entry whose type ends in ',' adds no edge |
| Visualisation.UnlabeledNodeEdge | csvFileForDatabaseAndVisualization.py:137-145 | with a plain type, a connected node without labels gives the entry `T ()`, whose piece parses to an edge to or from the name "" |
| Visualisation.UnlabeledEntryNoEdge | csvFileForDatabaseAndVisualization.py:141-152 | the intended expansion adds no edge for an entry without labels |
| Visualisation.ParenInLabelRaises | csvFileForDatabaseAndVisualization.py:143 | the piece `t (a)` makes the two-way unpack raise when its label a contains " (" and its type t does not |
| Visualisation.ParenInLabelColumnRaises | csvFileForDatabaseAndVisualization.py:137-144 | a column holding one entry with a plain type and a label that contains " (" but no ", " raises |
| Visualisation.SingleEntryColumn | csvFileForDatabaseAndVisualization.py:137-152 | a column holding one plain single-label entry adds exactly that entry's edge |
| Visualisation.SelfLoopDrawnOutgoing | csvFileForDatabaseAndVisualization.py:141-152 | when each column holds only the self-loop's entry, with a plain type and label, the graph has a single edge for the pair (label, label), with direction outgoing |
| Visualisation.PairOverwritten | csvFileForDatabaseAndVisualization.py:145-152 | two edges for one pair leave only the second one's attributes |
| Visualisation.EntryEdges | csvFileForDatabaseAndVisualization.py:141-152 | intended parse: an edge for every connected label of every entry, and no others |
| Visualisation.EntryGraph | csvFileForDatabaseAndVisualization.py:141-152 | intended graph: every connected label of an incoming entry points to the label, and the label points to every connected label of an outgoing entry |
| Visualisation.LabelGraphAgrees | csvFileForDatabaseAndVisualization.py:84-152 | on plain single-label entries the script's graph equals the intended graph |
| Visualisation.ColumnRoundTrip | csvFileForDatabaseAndVisualization.py:84-152 | parsing the joined column of plain single-label entries gives exactly one edge per entry, in order |
| Spreadsheet.Labels | extract_neo4j_data_to_excel.py:30-40 | a failing catalog query gives []; otherwise a list without duplicates of exactly the labels some node carries |
| Spreadsheet.Record | extract_neo4j_data_to_excel.py:144-158 | a label's record: all = incoming ++ outgoing; properties empty on a failing query and otherwise the label's distinct keys; both relationship lists empty when either query fails and otherwise exactly the matching entry texts |
| Spreadsheet.Records | extract_neo4j_data_to_excel.py:143-159 | one record per label, in order, each named by its label and describing that label as `Record` does |
| Spreadsheet.RecordFailureIsolated | extract_neo4j_data_to_excel.py:52-98 | a failing property or relationship query empties only that label's affected lists; the other records are unchanged |
| Spreadsheet.RecordUnderFailure | extract_neo4j_data_to_excel.py:43-98 | one more failing query changes only its own label's record, emptying the properties or the three relationship lists |
| Spreadsheet.Insert | extract_neo4j_data_to_excel.py:105 | inserting into a sorted list keeps it sorted, adds exactly the record, and puts it before the records of the same name |
| Spreadsheet.SortByName | extract_neo4j_data_to_excel.py:105 | `sort(key=label)`: sorted by name, a permutation, and records of one name keep their order (stable) |
| Spreadsheet.StableSortUnique | extract_neo4j_data_to_excel.py:105 | any stable sort by name gives the same sequence, so the model's sort matches Python's |
| Spreadsheet.Depth | extract_neo4j_data_to_excel.py:118 | `max` of the four list lengths: at least each of them, and equal to one of them |
| Spreadsheet.Layout | extract_neo4j_data_to_excel.py:110-128 | title `label[:31]`: a prefix of the label, the whole label when it fits and exactly 31 characters when it does not; the header, then max-length data rows of five cells |
| Spreadsheet.DataRow | extract_neo4j_data_to_excel.py:120-127 | data row i: the label only in row 0, and in each list column the list's i-th entry, or "" past its end |
| Spreadsheet.ColumnRecoversList | extract_neo4j_data_to_excel.py:123-126 | the first len(list) cells of a list column are the list, and the rest are "" |
| Spreadsheet.LabelOnlyInFirstRow | extract_neo4j_data_to_excel.py:122 | the label column holds the label in the first data row and "" below it |
| Spreadsheet.EmptyRecordHeaderOnly | extract_neo4j_data_to_excel.py:115-120 | a record whose four lists are all empty gets only the header row |
| Spreadsheet.RowsCoverRelationships | extract_neo4j_data_to_excel.py:118-120 | with all = incoming ++ outgoing there are at least len(incoming) + len(outgoing) data rows |
| Spreadsheet.Workbook | extract_neo4j_data_to_excel.py:136-162 | no workbook when the catalog is empty or fails; otherwise one sheet per label, laid out from a name-sorted permutation of the records |

## Left out

- The driver, sessions and credentials are not modelled. Only the query answers are, as functions of an in-memory graph. A failing query is named in the store's `failing` set, and this also covers a label whose backtick-quoted Cypher the server rejects.
- The scripts print progress and errors, which does not affect what they produce.
- The `csv` module's quoting and the file writes are not modelled. A CSV row is modelled as its fields, and the `write_to_csv` error handler (which swallows write errors) is not modelled.
- The CSV node count is kept as a number; its decimal text is not modelled.
- Cypher does not fix an order for its results. The model lists each distinct value at its first occurrence, in node or relationship order.
- Of the pandas `StringIO`/`read_csv` round trip, only one effect is modelled: an empty cell becomes a missing value, which means no pieces. `Visualisation.Pieces` gives an empty column no pieces, and `"".split(", ")` would give no edge either.
- Pandas type inference is not modelled. A label such as `1` or `NA` would be read back as a number or a missing value. Label names are kept as strings.
- `df['Label'].unique()` and the row filter are modelled as one row per label. This is exact because the catalog has no duplicates.
- The drawing is not modelled: `spring_layout`, matplotlib and the image path. `Visualisation.Picture` records only the label and its edge graph.
- The networkx node set is not modelled separately. Every node is an endpoint of some edge, so the node set follows from the keys.
- Workbook saving is not modelled. Two titles that collide after truncation, and characters a sheet title may not hold, are the spreadsheet library's behaviour.
- Every query of a run is answered from one fixed graph. The scripts open a new session for each query, so the data may change between the catalog query and the per-label queries; such changes are not modelled.
- `db.labels()` is modelled as exactly the labels some node carries. The server may also list a label that no node carries any more, and that label's count is 0. In the model every catalog label has a positive count, by `GraphStore.Catalog` and `GraphStore.CountZero`.
- There is no concurrency in the scripts, and none is modelled.

## Findings

| source | as written | input that shows it | evidently intended | confidence | as-written member | corrected member |
|---|---|---|---|---|---|---|
| csvFileForDatabaseAndVisualization.py:137-152 | each relationship column is split on ", " before " (" is looked for. The ", " inside a multi-label entry's label list therefore cuts the entry apart, and only the first label still follows " (". | an outgoing entry `KNOWS (Person, Employee)` for label `Person` becomes the pieces `KNOWS (Person` and `Employee)`. Only the edge Person → Person is added, and Employee is lost. | one edge per connected label: Person → Person and Person → Employee, both `KNOWS` | medium; not executed | Visualisation.MultiLabelKeepsFirst | Visualisation.EntryGraph |
| csvFileForDatabaseAndVisualization.py:141-152 | a piece is parsed whenever it contains " (". A connected node with no labels is exported as `T ()`, which, for a plain type `T`, parses to the type `T` and, after `rstrip(")")`, the empty label, so `add_edge` gets "" as an endpoint. | an incoming entry `LIKES ()` for label `Person`, from a node with no labels, adds the edge "" → Person | no edge for a connected node that has no label to draw | low; not executed | Visualisation.UnlabeledNodeEdge | Visualisation.EntryEdges |

=== FILE: csv_export.dfy ===
/**
 The six-column schema export (neo4j_export_labels_properties_relationships.py):
 the label catalog with node counts, then for every label its distinct
 properties and its incoming and outgoing relationship entries, each list
 joined with ", " into one CSV field. The catalog query and all count
 queries share one error handler, so any of them failing yields an empty
 catalog, and an empty catalog writes nothing at all. The property query has
 its own handler; the incoming and outgoing queries share one, so either
 failing empties both lists. A per-label failure touches that label only.
 */
module CsvExport {
  import opened Sequences
  import opened Text
  import opened GraphStore

  datatype LabelCount = LabelCount(name: string, count: nat)

  /** The count loop inside the catalog's error handler: one failing count
      abandons the whole loop. */
  function CountEach(st: Store, labels: seq<string>): (r: Option<seq<LabelCount>>)
    ensures r.None? <==> exists l :: l in labels && NodeCount(l) in st.failing
    ensures r.Some? ==> |r.value| == |labels|
    ensures r.Some? ==> forall i :: 0 <= i < |labels| ==>
      r.value[i] == LabelCount(labels[i], Count(st.graph, labels[i]))
  {
    if |labels| == 0 then Some([])
    else
      assert forall l :: l in labels <==> l == labels[0] || l in labels[1..];
      match RunCount(st, labels[0])
      case None => None
      case Some(c) =>
        match CountEach(st, labels[1..])
        case None => None
        case Some(rest) => Some([LabelCount(labels[0], c)] + rest)
  }

  /** `get_all_labels_with_count`: every catalog label with its node count,
      or the empty list when the catalog query or any count query fails. */
  function LabelsWithCount(st: Store): (r: seq<LabelCount>)
    ensures r == [] <==>
      || LabelCatalog in st.failing
      || Catalog(st.graph) == []
      || exists l :: l in Catalog(st.graph) && NodeCount(l) in st.failing
    ensures r != [] ==> |r| == |Catalog(st.graph)|
    ensures r != [] ==> forall i :: 0 <= i < |r| ==>
      r[i] == LabelCount(Catalog(st.graph)[i], Count(st.graph, Catalog(st.graph)[i]))
  {
    match RunCatalog(st)
    case None => []
    case Some(labels) =>
      match CountEach(st, labels)
      case None => []
      case Some(counted) => counted
  }

  /** `get_distinct_properties`: a failing query degrades to the empty list. */
  function DistinctProperties(st: Store, lbl: string): (r: seq<string>)
    ensures PropertyKeys(lbl) in st.failing ==> r == []
    ensures PropertyKeys(lbl) !in st.failing ==> r == Properties(st.graph, lbl)
    ensures PropertyKeys(lbl) !in st.failing ==> DescribesProperties(st.graph, lbl, r)
  {
    match RunProperties(st, lbl)
    case None => []
    case Some(ps) => ps
  }

  /** `get_all_relationships`: formatted incoming and outgoing entries. Both
      queries share one error handler, so either failing yields ([], []). */
  function AllRelationships(st: Store, lbl: string): (r: (seq<string>, seq<string>))
    requires Valid(st)
    ensures IncomingRels(lbl) in st.failing || OutgoingRels(lbl) in st.failing ==> r == ([], [])
    ensures IncomingRels(lbl) !in st.failing && OutgoingRels(lbl) !in st.failing ==>
      Some(r.0) == RunRelationships(st, lbl, Incoming) && Some(r.1) == RunRelationships(st, lbl, Outgoing)
    ensures IncomingRels(lbl) !in st.failing && OutgoingRels(lbl) !in st.failing ==>
      && DescribesRelationships(st.graph, lbl, Incoming, r.0)
      && DescribesRelationships(st.graph, lbl, Outgoing, r.1)
    ensures forall i :: 0 <= i < |r.0| ==> |r.0[i]| > 0
    ensures forall i :: 0 <= i < |r.1| ==> |r.1[i]| > 0
  {
    match (RunRelationships(st, lbl, Incoming), RunRelationships(st, lbl, Outgoing))
    case (Some(ins), Some(outs)) =>
      FormattedRelationships(st.graph, lbl, Incoming);
      FormattedRelationships(st.graph, lbl, Outgoing);
      (ins, outs)
    case _ => ([], [])
  }

  /** One CSV row: Label, Node Count, Properties, Relationships, Incoming, Outgoing. */
  datatype ExportRow = ExportRow(
    name: string,
    nodeCount: nat,
    properties: string,
    relationships: string,
    incoming: string,
    outgoing: string)

  /** The row written for `lbl` with node count `c`: its properties and its
      incoming, outgoing and combined relationship entries, each joined with ", ". */
  predicate RowOf(st: Store, lbl: string, c: nat, row: ExportRow)
    requires Valid(st)
  {
    var (ins, outs) := AllRelationships(st, lbl);
    && row.name == lbl
    && row.nodeCount == c
    && row.properties == Join(DistinctProperties(st, lbl), LabelSep)
    && row.relationships == Join(ins + outs, LabelSep)
    && row.incoming == Join(ins, LabelSep)
    && row.outgoing == Join(outs, LabelSep)
  }

  /** The row assembled for one catalog entry. Its "Relationships" field is
      the incoming field and the outgoing field, with one separator between
      them only when both are non-empty. */
  function RowFor(st: Store, lc: LabelCount): (row: ExportRow)
    requires Valid(st)
    ensures RowOf(st, lc.name, lc.count, row)
    ensures row.relationships ==
      if row.incoming == "" then row.outgoing
      else if row.outgoing == "" then row.incoming
      else row.incoming + LabelSep + row.outgoing
  {
    var props := DistinctProperties(st, lc.name);
    var (ins, outs) := AllRelationships(st, lc.name);
    JoinConcat(ins, outs, LabelSep);
    JoinEmpty(ins);
    JoinEmpty(outs);
    ExportRow(lc.name, lc.count, Join(props, LabelSep), Join(ins + outs, LabelSep),
              Join(ins, LabelSep), Join(outs, LabelSep))
  }

  /** Entries are never empty text, so a joined field is empty only for an empty list. */
  lemma JoinEmpty(xs: seq<string>)
    requires forall i :: 0 <= i < |xs| ==> |xs[i]| > 0
    ensures Join(xs, LabelSep) == "" <==> xs == []
  {
    if |xs| > 1 {
      assert |Join(xs, LabelSep)| >= |xs[0]|;
    }
  }

  /** `main`: None when the catalog is empty or failed (nothing is written),
      otherwise one row per catalog label, in catalog order. */
  function Export(st: Store): (r: Option<seq<ExportRow>>)
    requires Valid(st)
    ensures r.None? <==> LabelsWithCount(st) == []
    ensures r.Some? ==> |r.value| == |Catalog(st.graph)| > 0
    ensures r.Some? ==> forall i :: 0 <= i < |r.value| ==>
      RowOf(st, Catalog(st.graph)[i], Count(st.graph, Catalog(st.graph)[i]), r.value[i])
  {
    var lcs := LabelsWithCount(st);
    if lcs == [] then None else Some(Rows(st, lcs))
  }

  /** The rows of the label loop, one per catalog entry. */
  function Rows(st: Store, lcs: seq<LabelCount>): (rows: seq<ExportRow>)
    requires Valid(st)
    ensures |rows| == |lcs|
    ensures forall i :: 0 <= i < |lcs| ==> rows[i] == RowFor(st, lcs[i])
  {
    seq(|lcs|, i requires 0 <= i < |lcs| => RowFor(st, lcs[i]))
  }

  /** A single failing count query, for any catalog label, empties the whole export. */
  lemma CountFailureWritesNothing(st: Store, lbl: string)
    requires Valid(st) && lbl in Catalog(st.graph) && NodeCount(lbl) in st.failing
    ensures Export(st) == None
  {
  }

  /** How a row changes once `q` fails too: only the row of `q`'s label, and
      only the fields `q` feeds, become empty. */
  predicate FailureEffect(q: Query, b: ExportRow, a: ExportRow)
    requires q.PropertyKeys? || q.IncomingRels? || q.OutgoingRels?
  {
    && (b.name != q.name ==> a == b)
    && (b.name == q.name && q.PropertyKeys? ==> a == b.(properties := ""))
    && (b.name == q.name && !q.PropertyKeys? ==>
          a == b.(relationships := "", incoming := "", outgoing := ""))
  }

  /** One more failing property or relationship query changes only the lists
      of its own label, and only the lists that query feeds, which become empty. */
  lemma ListsUnderFailure(st: Store, q: Query, l: string)
    requires Valid(st)
    requires q.PropertyKeys? || q.IncomingRels? || q.OutgoingRels?
    ensures var st' := st.(failing := st.failing + {q});
      && (l != q.name || !q.PropertyKeys? ==> DistinctProperties(st', l) == DistinctProperties(st, l))
      && (l == q.name && q.PropertyKeys? ==> DistinctProperties(st', l) == [])
      && (l != q.name || q.PropertyKeys? ==> AllRelationships(st', l) == AllRelationships(st, l))
      && (l == q.name && !q.PropertyKeys? ==> AllRelationships(st', l) == ([], []))
  {
    var st' := st.(failing := st.failing + {q});
    assert PropertyKeys(l) in st'.failing <==> PropertyKeys(l) in st.failing || PropertyKeys(l) == q;
    assert IncomingRels(l) in st'.failing <==> IncomingRels(l) in st.failing || IncomingRels(l) == q;
    assert OutgoingRels(l) in st'.failing <==> OutgoingRels(l) in st.failing || OutgoingRels(l) == q;
  }

  /** The row of one label once `q` also fails. */
  lemma RowUnderFailure(st: Store, q: Query, lc: LabelCount)
    requires Valid(st)
    requires q.PropertyKeys? || q.IncomingRels? || q.OutgoingRels?
    ensures FailureEffect(q, RowFor(st, lc), RowFor(st.(failing := st.failing + {q}), lc))
  {
    ListsUnderFailure(st, q, lc.name);
  }

  /** A failing property or relationship query for one label blanks only
      that label's affected fields; every other row is unchanged. */
  lemma PerLabelFailureIsolated(st: Store, q: Query)
    requires Valid(st)
    requires q.PropertyKeys? || q.IncomingRels? || q.OutgoingRels?
    ensures var before, after := Export(st), Export(st.(failing := st.failing + {q}));
      && before.Some? == after.Some?
      && (before.Some? ==>
        && |before.value| == |after.value|
        && forall i :: 0 <= i < |before.value| ==> FailureEffect(q, before.value[i], after.value[i]))
  {
    var st' := st.(failing := st.failing + {q});
    var lcs := LabelsWithCount(st);
    assert LabelsWithCount(st') == lcs by {
      assert RunCatalog(st') == RunCatalog(st);
      CountEachUnaffected(st, q, Catalog(st.graph));
    }
    if lcs != [] {
      var before, after := Rows(st, lcs), Rows(st', lcs);
      assert Export(st) == Some(before);
      assert Export(st') == Some(after);
      forall i | 0 <= i < |lcs| ensures FailureEffect(q, before[i], after[i]) {
        RowUnderFailure(st, q, lcs[i]);
      }
    }
  }

  /** Only count queries matter to the count loop. */
  lemma {:induction false} CountEachUnaffected(st: Store, q: Query, labels: seq<string>)
    requires !q.NodeCount?
    ensures CountEach(st.(failing := st.failing + {q}), labels) == CountEach(st, labels)
    decreases |labels|
  {
    if |labels| > 0 {
      CountEachUnaffected(st, q, labels[1..]);
    }
  }
}

=== FILE: graph_store.dfy ===
/**
 The graph store the scripts query, as an in-memory property graph, and the
 answers the four discovery queries give over it. A node carries a list of
 labels and a list of property keys; a relationship has a type and refers to
 its source and target node by position. The store also names the queries
 that fail (an unreachable server, a refused permission), so that each
 script's error policy can be stated over it.
 */
module GraphStore {
  import opened Sequences
  import opened Text

  datatype Node = Node(labels: seq<string>, keys: seq<string>)

  datatype Relationship = Relationship(relType: string, source: nat, target: nat)

  datatype Graph = Graph(nodes: seq<Node>, rels: seq<Relationship>)

  /** Every relationship of `rels` connects two nodes of the graph. */
  predicate InGraph(g: Graph, rels: seq<Relationship>)
  {
    forall rel :: rel in rels ==> rel.source < |g.nodes| && rel.target < |g.nodes|
  }

  /** Every relationship of the graph connects two of its nodes. */
  predicate WellFormed(g: Graph)
  {
    InGraph(g, g.rels)
  }

  // ---------------------------------------------------------------------------
  // Label catalog: `CALL db.labels()` and `MATCH (n:L) RETURN count(n)`
  // ---------------------------------------------------------------------------

  /** Every label of every node, in node order, with repetitions. */
  function LabelStream(nodes: seq<Node>): (r: seq<string>)
    ensures forall l :: l in r <==> exists n :: n in nodes && l in n.labels
  {
    if |nodes| == 0 then []
    else
      var r := nodes[0].labels + LabelStream(nodes[1..]);
      assert forall n :: n in nodes <==> n == nodes[0] || n in nodes[1..];
      r
  }

  /** The labels in use, each once (the answer to `CALL db.labels()`). */
  function Catalog(g: Graph): (r: seq<string>)
    ensures NoDups(r)
    ensures forall l :: l in r <==> exists n :: n in g.nodes && l in n.labels
  {
    Distinct(LabelStream(g.nodes))
  }

  /** The nodes carrying `label`, in node order (the matches of `MATCH (n:label)`). */
  function NodesCarrying(nodes: seq<Node>, lbl: string): (r: seq<Node>)
    ensures |r| <= |nodes|
    ensures forall n :: multiset(r)[n] == if lbl in n.labels then multiset(nodes)[n] else 0
  {
    if |nodes| == 0 then []
    else
      assert nodes == [nodes[0]] + nodes[1..];
      (if lbl in nodes[0].labels then [nodes[0]] else []) + NodesCarrying(nodes[1..], lbl)
  }

  /** `count(n)` over `MATCH (n:label)`: at most the number of nodes. */
  function Count(g: Graph, lbl: string): (c: nat)
    ensures c <= |g.nodes|
  {
    |NodesCarrying(g.nodes, lbl)|
  }

  /** The count is zero exactly when no node carries the label. */
  lemma CountZero(g: Graph, lbl: string)
    ensures Count(g, lbl) == 0 <==> forall n :: n in g.nodes ==> lbl !in n.labels
  {
    var r := NodesCarrying(g.nodes, lbl);
    if |r| == 0 {
      forall n | n in g.nodes ensures lbl !in n.labels {
        assert multiset(r)[n] == 0;
      }
    } else {
      assert r[0] in multiset(r);
    }
  }

  // ---------------------------------------------------------------------------
  // Property discovery: `collect(DISTINCT keys(n))`, unwound, `RETURN DISTINCT key`
  // ---------------------------------------------------------------------------

  /** The keys of every node carrying `label`, in node order, with repetitions. */
  function KeyStream(nodes: seq<Node>, lbl: string): (r: seq<string>)
    ensures forall k :: k in r <==> exists n :: n in nodes && lbl in n.labels && k in n.keys
  {
    if |nodes| == 0 then []
    else
      assert forall n :: n in nodes <==> n == nodes[0] || n in nodes[1..];
      (if lbl in nodes[0].labels then nodes[0].keys else []) + KeyStream(nodes[1..], lbl)
  }

  /** The property keys observed on nodes of `label`: the union over all of
      them, so a key present on a single node is included, each key once. */
  function Properties(g: Graph, lbl: string): (r: seq<string>)
    ensures NoDups(r)
    ensures forall k :: k in r <==> exists n :: n in g.nodes && lbl in n.labels && k in n.keys
  {
    Distinct(KeyStream(g.nodes, lbl))
  }

  /** A label no node carries has no properties. */
  lemma PropertiesOfUnusedLabel(g: Graph, lbl: string)
    requires forall n :: n in g.nodes ==> lbl !in n.labels
    ensures Properties(g, lbl) == []
  {
  }

  // ---------------------------------------------------------------------------
  // Relationship discovery:
  //   incoming  `MATCH (a:L)<-[r]-(b) RETURN DISTINCT type(r), labels(b)`
  //   outgoing  `MATCH (a:L)-[r]->(b) RETURN DISTINCT type(r), labels(b)`
  // ---------------------------------------------------------------------------

  datatype Direction = Incoming | Outgoing

  /** One distinct (relationship type, labels of the node at the other end) pair. */
  datatype RelEntry = RelEntry(relType: string, connected: seq<string>)

  /** The end of `rel` that must carry the label: the target for incoming, the source for outgoing. */
  function Near(rel: Relationship, dir: Direction): nat
  {
    if dir == Outgoing then rel.source else rel.target
  }

  /** The other end of `rel`, whose labels are reported. */
  function Far(rel: Relationship, dir: Direction): nat
  {
    if dir == Outgoing then rel.target else rel.source
  }

  /** `rel` matches the pattern for `label` in direction `dir`. */
  predicate Matches(g: Graph, rel: Relationship, lbl: string, dir: Direction)
    requires rel.source < |g.nodes| && rel.target < |g.nodes|
  {
    lbl in g.nodes[Near(rel, dir)].labels
  }

  /** The row a matching relationship contributes. */
  function EntryOf(g: Graph, rel: Relationship, dir: Direction): RelEntry
    requires rel.source < |g.nodes| && rel.target < |g.nodes|
  {
    RelEntry(rel.relType, g.nodes[Far(rel, dir)].labels)
  }

  /** The rows of every matching relationship, in relationship order, with repetitions. */
  function EntryStream(g: Graph, rels: seq<Relationship>, lbl: string, dir: Direction): (r: seq<RelEntry>)
    requires InGraph(g, rels)
    ensures forall e :: e in r <==>
      exists rel :: rel in rels && Matches(g, rel, lbl, dir) && e == EntryOf(g, rel, dir)
  {
    if |rels| == 0 then []
    else
      assert forall rel :: rel in rels <==> rel == rels[0] || rel in rels[1..];
      (if Matches(g, rels[0], lbl, dir) then [EntryOf(g, rels[0], dir)] else [])
        + EntryStream(g, rels[1..], lbl, dir)
  }

  /** The distinct (type, connected labels) pairs for `label` in direction `dir`:
      one entry per pair however many relationships share it. */
  function Relationships(g: Graph, lbl: string, dir: Direction): (r: seq<RelEntry>)
    requires WellFormed(g)
    ensures NoDups(r)
    ensures forall e :: e in r <==>
      exists rel :: rel in g.rels && Matches(g, rel, lbl, dir) && e == EntryOf(g, rel, dir)
  {
    Distinct(EntryStream(g, g.rels, lbl, dir))
  }

  /** Outgoing: exactly the pairs (type, labels of the target) over relationships whose source carries `label`. */
  lemma OutgoingPairs(g: Graph, lbl: string, e: RelEntry)
    requires WellFormed(g)
    ensures e in Relationships(g, lbl, Outgoing) <==>
      exists rel :: rel in g.rels && lbl in g.nodes[rel.source].labels
        && e == RelEntry(rel.relType, g.nodes[rel.target].labels)
  {
  }

  /** Incoming: exactly the pairs (type, labels of the source) over relationships whose target carries `label`. */
  lemma IncomingPairs(g: Graph, lbl: string, e: RelEntry)
    requires WellFormed(g)
    ensures e in Relationships(g, lbl, Incoming) <==>
      exists rel :: rel in g.rels && lbl in g.nodes[rel.target].labels
        && e == RelEntry(rel.relType, g.nodes[rel.source].labels)
  {
  }

  /** A self-loop on a node carrying `label` is listed both ways, with that node's labels. */
  lemma SelfLoopBothWays(g: Graph, lbl: string, rel: Relationship)
    requires WellFormed(g) && rel in g.rels && rel.source == rel.target
    requires lbl in g.nodes[rel.source].labels
    ensures RelEntry(rel.relType, g.nodes[rel.source].labels) in Relationships(g, lbl, Incoming)
    ensures RelEntry(rel.relType, g.nodes[rel.source].labels) in Relationships(g, lbl, Outgoing)
  {
    assert Matches(g, rel, lbl, Incoming) && Matches(g, rel, lbl, Outgoing);
  }

  /** A relationship whose near end carries several labels is listed under each of
      them, and always with the full label list of the far end. */
  lemma ListedUnderEveryLabel(g: Graph, rel: Relationship, dir: Direction, l1: string, l2: string)
    requires WellFormed(g) && rel in g.rels
    requires l1 in g.nodes[Near(rel, dir)].labels && l2 in g.nodes[Near(rel, dir)].labels
    ensures EntryOf(g, rel, dir) in Relationships(g, l1, dir)
    ensures EntryOf(g, rel, dir) in Relationships(g, l2, dir)
  {
    assert Matches(g, rel, l1, dir) && Matches(g, rel, l2, dir);
  }

  /** A label no node carries has no relationships in either direction. */
  lemma RelationshipsOfUnusedLabel(g: Graph, lbl: string, dir: Direction)
    requires WellFormed(g)
    requires forall n :: n in g.nodes ==> lbl !in n.labels
    ensures Relationships(g, lbl, dir) == []
  {
  }

  // ---------------------------------------------------------------------------
  // Relationship entry text: f"{type} ({', '.join(labels)})"
  // ---------------------------------------------------------------------------

  const LabelSep := ", "
  const OpenParen := " ("

  /** The text one relationship entry is exported as: the type and " (" come
      first, ")" comes last, so it is never empty. */
  function Format(e: RelEntry): (r: string)
    ensures |r| >= |e.relType| + 3 && r[|r| - 1] == ')'
    ensures e.relType + OpenParen <= r
  {
    e.relType + OpenParen + Join(e.connected, LabelSep) + ")"
  }

  /** An entry's text is its type and " (", then its labels joined by ", ",
      then ")"; when no label holds ", ", cutting that middle part on ", "
      gives the labels back. */
  lemma FormatDecomposes(e: RelEntry)
    ensures var s := Format(e);
      && |s| >= |e.relType| + 3
      && s[..|e.relType| + 2] == e.relType + OpenParen
      && s[|s| - 1] == ')'
      && s[|e.relType| + 2..|s| - 1] == Join(e.connected, LabelSep)
    ensures |e.connected| >= 1 && (forall i :: 0 <= i < |e.connected| ==> !Contains(e.connected[i], LabelSep)) ==>
      Split(Format(e)[|e.relType| + 2..|Format(e)| - 1], LabelSep) == e.connected
  {
    var s := Format(e);
    var mid := Join(e.connected, LabelSep);
    assert s == e.relType + OpenParen + mid + ")";
    assert s[|e.relType| + 2..|s| - 1] == mid;
    if |e.connected| >= 1 && (forall i :: 0 <= i < |e.connected| ==> !Contains(e.connected[i], LabelSep)) {
      SplitJoin(e.connected, LabelSep);
    }
  }

  /** The formatted text of each entry, in order. */
  function FormatAll(es: seq<RelEntry>): (r: seq<string>)
    ensures |r| == |es|
    ensures forall i :: 0 <= i < |es| ==> r[i] == Format(es[i])
  {
    seq(|es|, i requires 0 <= i < |es| => Format(es[i]))
  }

  // ---------------------------------------------------------------------------
  // The store: the graph plus the queries that fail against it
  // ---------------------------------------------------------------------------

  /** `ps` is what the property query promises for `label`: each key once,
      and exactly the keys some node carrying the label has. */
  ghost predicate DescribesProperties(g: Graph, lbl: string, ps: seq<string>)
  {
    && NoDups(ps)
    && forall k :: k in ps <==> exists n :: n in g.nodes && lbl in n.labels && k in n.keys
  }

  /** `fs` is what a relationship query promises for `label`: exactly the texts
      of the (type, far-end labels) pairs of relationships matching in `dir`. */
  ghost predicate DescribesRelationships(g: Graph, lbl: string, dir: Direction, fs: seq<string>)
    requires WellFormed(g)
  {
    forall s :: s in fs <==>
      exists rel :: rel in g.rels && Matches(g, rel, lbl, dir) && s == Format(EntryOf(g, rel, dir))
  }

  datatype Query =
    | LabelCatalog
    | NodeCount(name: string)
    | PropertyKeys(name: string)
    | IncomingRels(name: string)
    | OutgoingRels(name: string)

  datatype Store = Store(graph: Graph, failing: set<Query>)

  predicate Valid(st: Store)
  {
    WellFormed(st.graph)
  }

  function RelQuery(lbl: string, dir: Direction): Query
  {
    if dir == Incoming then IncomingRels(lbl) else OutgoingRels(lbl)
  }

  /** The answer to `CALL db.labels()`, or None when the query fails. */
  function RunCatalog(st: Store): (r: Option<seq<string>>)
    ensures r.None? <==> LabelCatalog in st.failing
    ensures r.Some? ==> r.value == Catalog(st.graph)
  {
    if LabelCatalog in st.failing then None else Some(Catalog(st.graph))
  }

  /** The answer to the per-label count query, or None when it fails. */
  function RunCount(st: Store, lbl: string): (r: Option<nat>)
    ensures r.None? <==> NodeCount(lbl) in st.failing
    ensures r.Some? ==> r.value == Count(st.graph, lbl)
  {
    if NodeCount(lbl) in st.failing then None else Some(Count(st.graph, lbl))
  }

  /** The answer to the per-label property query, or None when it fails. */
  function RunProperties(st: Store, lbl: string): (r: Option<seq<string>>)
    ensures r.None? <==> PropertyKeys(lbl) in st.failing
    ensures r.Some? ==> r.value == Properties(st.graph, lbl)
  {
    if PropertyKeys(lbl) in st.failing then None else Some(Properties(st.graph, lbl))
  }

  /** The formatted entries of one relationship query, or None when it fails. */
  function RunRelationships(st: Store, lbl: string, dir: Direction): (r: Option<seq<string>>)
    requires Valid(st)
    ensures r.None? <==> RelQuery(lbl, dir) in st.failing
    ensures r.Some? ==> r.value == FormatAll(Relationships(st.graph, lbl, dir))
  {
    if RelQuery(lbl, dir) in st.failing then None
    else Some(FormatAll(Relationships(st.graph, lbl, dir)))
  }

  /** The formatted answer of a relationship query is what the query promises. */
  lemma FormattedRelationships(g: Graph, lbl: string, dir: Direction)
    requires WellFormed(g)
    ensures DescribesRelationships(g, lbl, dir, FormatAll(Relationships(g, lbl, dir)))
  {
    var es := Relationships(g, lbl, dir);
    forall rel | rel in g.rels && Matches(g, rel, lbl, dir)
      ensures Format(EntryOf(g, rel, dir)) in FormatAll(es)
    {
      assert EntryOf(g, rel, dir) in es;
      var i :| 0 <= i < |es| && es[i] == EntryOf(g, rel, dir);
      assert FormatAll(es)[i] == Format(EntryOf(g, rel, dir));
    }
    forall s ensures s in FormatAll(es) <==>
      exists rel :: rel in g.rels && Matches(g, rel, lbl, dir) && s == Format(EntryOf(g, rel, dir))
    {
      var fs := FormatAll(es);
      if s in fs {
        var i :| 0 <= i < |fs| && fs[i] == s;
        assert es[i] in es;
      }
    }
  }
}

=== FILE: sequences.dfy ===
/**
 Generic sequence helpers shared by the schema model: an optional value,
 duplicate-freedom, and the first-occurrence de-duplication that Cypher's
 `DISTINCT` performs on a result stream.
 */
module Sequences {

  /** A value that may be absent: a failed query, an aborted run, nothing written. */
  datatype Option<T> = None | Some(value: T)

  /** No element occurs twice. */
  predicate NoDups<T(==,!new)>(xs: seq<T>)
  {
    forall i, j :: 0 <= i < j < |xs| ==> xs[i] != xs[j]
  }

  /** Appends to `seen` every element of `xs` it does not already hold,
      keeping the first occurrence of each and the order of the stream. */
  function DistinctOnto<T(==,!new)>(seen: seq<T>, xs: seq<T>): (r: seq<T>)
    requires NoDups(seen)
    ensures NoDups(r)
    ensures |seen| <= |r| <= |seen| + |xs|
    ensures r[..|seen|] == seen
    ensures forall x :: x in r <==> x in seen || x in xs
    decreases |xs|
  {
    if |xs| == 0 then seen
    else if xs[0] in seen then DistinctOnto(seen, xs[1..])
    else DistinctOnto(seen + [xs[0]], xs[1..])
  }

  /** The distinct elements of `xs` in order of first occurrence. */
  function Distinct<T(==,!new)>(xs: seq<T>): (r: seq<T>)
    ensures NoDups(r)
    ensures |r| <= |xs|
    ensures forall x :: x in r <==> x in xs
  {
    DistinctOnto([], xs)
  }
}

=== FILE: spreadsheet.dfy ===
/**
 The spreadsheet export (extract_neo4j_data_to_excel.py): per label its
 properties and relationship entries kept as lists, the records sorted by
 label name, and one sheet per record whose title is the label cut to 31
 characters and whose rows hold the lists side by side, padded with "".
 */
module Spreadsheet {
  import opened Sequences
  import opened Text
  import opened GraphStore
  import CsvExport

  // ---------------------------------------------------------------------------
  // Collection
  // ---------------------------------------------------------------------------

  /** One label's record: name, properties, all relationships, incoming, outgoing. */
  datatype LabelData = LabelData(
    name: string,
    properties: seq<string>,
    all: seq<string>,
    incoming: seq<string>,
    outgoing: seq<string>)

  /** `get_all_labels`: the catalog, or the empty list when the query fails. */
  function Labels(st: Store): (r: seq<string>)
    ensures LabelCatalog in st.failing ==> r == []
    ensures LabelCatalog !in st.failing ==> r == Catalog(st.graph)
    ensures LabelCatalog !in st.failing ==>
      NoDups(r) && forall l :: l in r <==> exists n :: n in st.graph.nodes && l in n.labels
  {
    match RunCatalog(st)
    case None => []
    case Some(labels) => labels
  }

  /** What `main` gathers for `label`: the label, its properties ([] when that
      query fails), its incoming and outgoing entries (both [] when either
      query fails), and all = incoming ++ outgoing. */
  ghost predicate RecordOf(st: Store, lbl: string, d: LabelData)
    requires Valid(st)
  {
    var relFails := IncomingRels(lbl) in st.failing || OutgoingRels(lbl) in st.failing;
    && d.name == lbl
    && d.all == d.incoming + d.outgoing
    && (PropertyKeys(lbl) in st.failing ==> d.properties == [])
    && (PropertyKeys(lbl) !in st.failing ==> DescribesProperties(st.graph, lbl, d.properties))
    && (relFails ==> d.incoming == [] && d.outgoing == [])
    && (!relFails ==>
          && DescribesRelationships(st.graph, lbl, Incoming, d.incoming)
          && DescribesRelationships(st.graph, lbl, Outgoing, d.outgoing))
  }

  /** The record of one label. This script's `get_distinct_properties` and
      `get_all_relationships` handle failures exactly as the CSV export's do. */
  function Record(st: Store, lbl: string): (d: LabelData)
    requires Valid(st)
    ensures RecordOf(st, lbl, d)
    ensures d.properties == CsvExport.DistinctProperties(st, lbl)
    ensures (d.incoming, d.outgoing) == CsvExport.AllRelationships(st, lbl)
  {
    var props := CsvExport.DistinctProperties(st, lbl);
    var (ins, outs) := CsvExport.AllRelationships(st, lbl);
    LabelData(lbl, props, ins + outs, ins, outs)
  }

  /** The label loop of `main`: one record per label, in catalog order. */
  function Records(st: Store, labels: seq<string>): (ds: seq<LabelData>)
    requires Valid(st)
    ensures |ds| == |labels|
    ensures forall i :: 0 <= i < |labels| ==> ds[i] == Record(st, labels[i])
    ensures forall i :: 0 <= i < |labels| ==> RecordOf(st, labels[i], ds[i])
  {
    seq(|labels|, i requires 0 <= i < |labels| => Record(st, labels[i]))
  }

  /** One more failing query changes only the record of its own label: a
      property query empties its properties, a relationship query its lists. */
  lemma RecordUnderFailure(st: Store, q: Query, l: string)
    requires Valid(st)
    requires q.PropertyKeys? || q.IncomingRels? || q.OutgoingRels?
    ensures var before, after := Record(st, l), Record(st.(failing := st.failing + {q}), l);
      && (l != q.name ==> after == before)
      && (l == q.name && q.PropertyKeys? ==> after == before.(properties := []))
      && (l == q.name && !q.PropertyKeys? ==> after == before.(all := [], incoming := [], outgoing := []))
  {
    CsvExport.ListsUnderFailure(st, q, l);
  }

  /** A failing query for one label empties that label's lists and leaves
      every other record as it was. */
  lemma RecordFailureIsolated(st: Store, q: Query, labels: seq<string>)
    requires Valid(st)
    requires q.PropertyKeys? || q.IncomingRels? || q.OutgoingRels?
    ensures var before, after := Records(st, labels), Records(st.(failing := st.failing + {q}), labels);
      forall i :: 0 <= i < |labels| ==>
        && (labels[i] != q.name ==> after[i] == before[i])
        && (labels[i] == q.name && q.PropertyKeys? ==> after[i] == before[i].(properties := []))
        && (labels[i] == q.name && !q.PropertyKeys? ==>
              after[i] == before[i].(all := [], incoming := [], outgoing := []))
  {
    forall i | 0 <= i < |labels| {
      RecordUnderFailure(st, q, labels[i]);
    }
  }

  // ---------------------------------------------------------------------------
  // Sorting by label name: `data.sort(key=lambda x: x[0])`
  // ---------------------------------------------------------------------------

  /** Ascending by name, as Python's `<` orders strings. */
  predicate SortedByName(ds: seq<LabelData>)
  {
    forall i, j :: 0 <= i < j < |ds| ==> !Below(ds[j].name, ds[i].name)
  }

  /** The records named `k`, in order. */
  function WithName(ds: seq<LabelData>, k: string): (r: seq<LabelData>)
    ensures forall d :: d in r <==> d in ds && d.name == k
  {
    if |ds| == 0 then []
    else
      assert forall d :: d in ds <==> d == ds[0] || d in ds[1..];
      (if ds[0].name == k then [ds[0]] else []) + WithName(ds[1..], k)
  }

  /** "Not below" is transitive. */
  lemma NotBelowTransitive(a: string, b: string, c: string)
    requires !Below(b, a) && !Below(c, b)
    ensures !Below(c, a)
  {
    BelowTotal(a, b);
    if Below(c, a) {
      if a == b {
      } else {
        BelowTransitive(c, a, b);
      }
    }
  }

  /** Inserts `d` before the first record whose name is not below its own, so
      records of equal name keep their order. */
  function Insert(d: LabelData, ds: seq<LabelData>): (r: seq<LabelData>)
    requires SortedByName(ds)
    ensures SortedByName(r)
    ensures multiset(r) == multiset(ds) + multiset{d}
    ensures forall k :: WithName(r, k) == if d.name == k then [d] + WithName(ds, k) else WithName(ds, k)
  {
    if |ds| == 0 then [d]
    else if !Below(ds[0].name, d.name) then
      InsertFront(d, ds);
      [d] + ds
    else
      var rest := Insert(d, ds[1..]);
      InsertBehind(d, ds, rest);
      [ds[0]] + rest
  }

  /** The records named `k` in a sequence with a given first record. */
  lemma WithNameCons(x: LabelData, s: seq<LabelData>, k: string)
    ensures WithName([x] + s, k) == (if x.name == k then [x] else []) + WithName(s, k)
  {
    assert ([x] + s)[1..] == s;
  }

  /** Placing `d` in front of records none of whose names is below its own keeps the order. */
  lemma InsertFront(d: LabelData, ds: seq<LabelData>)
    requires SortedByName(ds) && |ds| > 0 && !Below(ds[0].name, d.name)
    ensures SortedByName([d] + ds)
    ensures forall k :: WithName([d] + ds, k) == if d.name == k then [d] + WithName(ds, k) else WithName(ds, k)
  {
    forall j | 0 <= j < |ds| ensures !Below(ds[j].name, d.name) {
      if j > 0 {
        NotBelowTransitive(d.name, ds[0].name, ds[j].name);
      }
    }
    assert forall i :: 0 < i <= |ds| ==> ([d] + ds)[i] == ds[i - 1];
    forall k ensures WithName([d] + ds, k) == if d.name == k then [d] + WithName(ds, k) else WithName(ds, k) {
      WithNameCons(d, ds, k);
    }
  }

  /** A record whose name is below none of the names after it can go in front. */
  lemma ConsSorted(x: LabelData, s: seq<LabelData>)
    requires SortedByName(s)
    requires forall y :: y in s ==> !Below(y.name, x.name)
    ensures SortedByName([x] + s)
  {
    assert forall i :: 0 < i <= |s| ==> ([x] + s)[i] == s[i - 1];
    assert forall i :: 0 <= i < |s| ==> s[i] in s;
  }

  /** Every record of the insertion into the rest is at or above the first record. */
  lemma FirstStaysFirst(d: LabelData, ds: seq<LabelData>, rest: seq<LabelData>)
    requires SortedByName(ds) && |ds| > 0 && Below(ds[0].name, d.name)
    requires multiset(rest) == multiset(ds[1..]) + multiset{d}
    ensures forall x :: x in rest ==> !Below(x.name, ds[0].name)
  {
    forall x | x in rest ensures !Below(x.name, ds[0].name) {
      assert x in multiset(rest);
      if x != d {
        assert x in multiset(ds[1..]);
        var j :| 0 <= j < |ds[1..]| && ds[1..][j] == x;
        assert ds[j + 1] == x;
      } else {
        BelowTotal(ds[0].name, d.name);
        if Below(d.name, ds[0].name) {
          BelowTransitive(d.name, ds[0].name, d.name);
          BelowIrreflexive(d.name);
        }
      }
    }
  }

  /** Putting the first record back in front of the rest, with `d` inserted, gives `ds` plus `d`. */
  lemma KeepFirst(d: LabelData, ds: seq<LabelData>, rest: seq<LabelData>)
    requires |ds| > 0 && multiset(rest) == multiset(ds[1..]) + multiset{d}
    ensures multiset([ds[0]] + rest) == multiset(ds) + multiset{d}
  {
    assert ds == [ds[0]] + ds[1..];
  }

  /** Keeping the first record in front of the insertion into the rest keeps the order. */
  lemma InsertBehind(d: LabelData, ds: seq<LabelData>, rest: seq<LabelData>)
    requires SortedByName(ds) && |ds| > 0 && Below(ds[0].name, d.name)
    requires SortedByName(rest) && multiset(rest) == multiset(ds[1..]) + multiset{d}
    requires forall k :: WithName(rest, k) == if d.name == k then [d] + WithName(ds[1..], k) else WithName(ds[1..], k)
    ensures SortedByName([ds[0]] + rest)
    ensures multiset([ds[0]] + rest) == multiset(ds) + multiset{d}
    ensures forall k :: WithName([ds[0]] + rest, k) == if d.name == k then [d] + WithName(ds, k) else WithName(ds, k)
  {
    KeepFirst(d, ds, rest);
    FirstStaysFirst(d, ds, rest);
    ConsSorted(ds[0], rest);
    forall k ensures WithName([ds[0]] + rest, k) == if d.name == k then [d] + WithName(ds, k) else WithName(ds, k) {
      BehindName(d, ds, rest, k);
    }
  }

  /** The records of one name after inserting behind the first record. */
  lemma BehindName(d: LabelData, ds: seq<LabelData>, rest: seq<LabelData>, k: string)
    requires |ds| > 0 && Below(ds[0].name, d.name)
    requires WithName(rest, k) == if d.name == k then [d] + WithName(ds[1..], k) else WithName(ds[1..], k)
    ensures WithName([ds[0]] + rest, k) == if d.name == k then [d] + WithName(ds, k) else WithName(ds, k)
  {
    var x := ds[0];
    assert x.name != d.name by {
      BelowIrreflexive(d.name);
    }
    WithNameCons(x, rest, k);
    WithNameCons(x, ds[1..], k);
    assert [x] + ds[1..] == ds;
    if d.name == k {
      assert WithName([x] + rest, k) == WithName(rest, k);
      assert WithName(ds, k) == WithName(ds[1..], k);
    }
  }

  /** `list.sort` by name: stable insertion sort. */
  function SortByName(ds: seq<LabelData>): (r: seq<LabelData>)
    ensures SortedByName(r)
    ensures multiset(r) == multiset(ds)
    ensures forall k :: WithName(r, k) == WithName(ds, k)
  {
    if |ds| == 0 then []
    else
      assert ds == [ds[0]] + ds[1..];
      Insert(ds[0], SortByName(ds[1..]))
  }

  /** A sorted sequence that keeps, name by name, the records of another in
      their order is unique: any stable sort by name yields `SortByName`. */
  lemma {:induction false} StableSortUnique(r1: seq<LabelData>, r2: seq<LabelData>)
    requires SortedByName(r1) && SortedByName(r2)
    requires forall k :: WithName(r1, k) == WithName(r2, k)
    ensures r1 == r2
    decreases |r1|
  {
    BothEmptyOrNeither(r1, r2);
    if |r1| > 0 {
      SameFirst(r1, r2);
      SameRest(r1, r2);
      assert SortedByName(r1[1..]) && SortedByName(r2[1..]);
      StableSortUnique(r1[1..], r2[1..]);
      assert r1 == [r1[0]] + r1[1..] && r2 == [r2[0]] + r2[1..];
    }
  }

  /** Sequences with the same records per name are both empty or both not. */
  lemma BothEmptyOrNeither(r1: seq<LabelData>, r2: seq<LabelData>)
    requires forall k :: WithName(r1, k) == WithName(r2, k)
    ensures |r1| == 0 <==> |r2| == 0
  {
    if |r1| > 0 {
      assert r1[0] in WithName(r2, r1[0].name);
    }
    if |r2| > 0 {
      assert r2[0] in WithName(r1, r2[0].name);
    }
  }

  /** Two sorted sequences with the same records per name start alike. */
  lemma SameFirst(r1: seq<LabelData>, r2: seq<LabelData>)
    requires |r1| > 0 && |r2| > 0
    requires SortedByName(r1) && SortedByName(r2)
    requires forall k :: WithName(r1, k) == WithName(r2, k)
    ensures r1[0] == r2[0]
  {
    var a, b := r1[0].name, r2[0].name;
    assert r1[0] in WithName(r2, a) && r2[0] in WithName(r1, b);
    BelowTotal(a, b);
    assert WithName(r1, a)[0] == r1[0];
    assert WithName(r2, a)[0] == r2[0];
  }

  /** Dropping a common first record keeps the per-name agreement. */
  lemma SameRest(r1: seq<LabelData>, r2: seq<LabelData>)
    requires |r1| > 0 && |r2| > 0 && r1[0] == r2[0]
    requires forall k :: WithName(r1, k) == WithName(r2, k)
    ensures forall k :: WithName(r1[1..], k) == WithName(r2[1..], k)
  {
    forall k ensures WithName(r1[1..], k) == WithName(r2[1..], k) {
      var h := if r1[0].name == k then [r1[0]] else [];
      assert WithName(r1, k) == h + WithName(r1[1..], k);
      assert WithName(r2, k) == h + WithName(r2[1..], k);
      assert WithName(r1[1..], k) == WithName(r1, k)[|h|..];
    }
  }

  // ---------------------------------------------------------------------------
  // Sheet layout
  // ---------------------------------------------------------------------------

  /** The longest sheet name the workbook format accepts. */
  const MaxTitle: nat := 31

  const Header: seq<string> :=
    ["Label", "Property", "All Relationship", "Incoming Relationship", "Outgoing Relationship"]

  datatype Sheet = Sheet(title: string, rows: seq<seq<string>>)

  /** `xs[i] if i < len(xs) else ""`. */
  function CellAt(xs: seq<string>, i: nat): string
  {
    if i < |xs| then xs[i] else ""
  }

  /** The number of data rows: the longest of the four lists. */
  function Depth(d: LabelData): (n: nat)
    ensures n >= |d.properties| && n >= |d.all| && n >= |d.incoming| && n >= |d.outgoing|
    ensures n == |d.properties| || n == |d.all| || n == |d.incoming| || n == |d.outgoing|
  {
    var a := if |d.properties| >= |d.all| then |d.properties| else |d.all|;
    var b := if |d.incoming| >= |d.outgoing| then |d.incoming| else |d.outgoing|;
    if a >= b then a else b
  }

  /** The four list columns of a record, in sheet order. */
  function Lists(d: LabelData): seq<seq<string>>
  {
    [d.properties, d.all, d.incoming, d.outgoing]
  }

  /** Data row `i`: the label in the first row only, then for each list its
      i-th entry while it lasts and "" after it. */
  function DataRow(d: LabelData, i: nat): (r: seq<string>)
    ensures |r| == |Header|
    ensures r[0] == d.name <==> i == 0 || d.name == ""
    ensures r[0] != d.name ==> r[0] == ""
    ensures forall c :: 1 <= c < |Header| && i < |Lists(d)[c - 1]| ==> r[c] == Lists(d)[c - 1][i]
    ensures forall c :: 1 <= c < |Header| && i >= |Lists(d)[c - 1]| ==> r[c] == ""
  {
    [if i == 0 then d.name else "", CellAt(d.properties, i), CellAt(d.all, i),
     CellAt(d.incoming, i), CellAt(d.outgoing, i)]
  }

  /** The sheet written for one record. */
  function Layout(d: LabelData): (s: Sheet)
    ensures |s.title| <= MaxTitle && s.title <= d.name
    ensures |d.name| <= MaxTitle ==> s.title == d.name
    ensures |d.name| > MaxTitle ==> |s.title| == MaxTitle
    ensures |s.rows| == 1 + Depth(d) && s.rows[0] == Header
    ensures forall i :: 1 <= i < |s.rows| ==> |s.rows[i]| == |Header|
  {
    var n := Depth(d);
    Sheet(Truncate(d.name, MaxTitle), [Header] + seq(n, i requires 0 <= i < n => DataRow(d, i)))
  }

  /** Column `c` of a sheet below its header (rows too short give ""). */
  function Column(s: Sheet, c: nat): (col: seq<string>)
    ensures |col| == if |s.rows| == 0 then 0 else |s.rows| - 1
  {
    if |s.rows| == 0 then []
    else seq(|s.rows| - 1, i requires 0 <= i < |s.rows| - 1 => if c < |s.rows[i + 1]| then s.rows[i + 1][c] else "")
  }

  /** Reading a list column back: its first entries are the list exactly, the
      rest padding. */
  lemma ColumnRecoversList(d: LabelData, c: nat, xs: seq<string>)
    requires 1 <= c <= 4
    requires xs == Lists(d)[c - 1]
    ensures |xs| <= |Column(Layout(d), c)|
    ensures Column(Layout(d), c)[..|xs|] == xs
    ensures forall i :: |xs| <= i < |Column(Layout(d), c)| ==> Column(Layout(d), c)[i] == ""
  {
    var col := Column(Layout(d), c);
    forall i | 0 <= i < |col| ensures col[i] == CellAt(xs, i) {
      assert Layout(d).rows[i + 1] == DataRow(d, i);
    }
  }

  /** The label column holds the label in the first data row and "" below. */
  lemma LabelOnlyInFirstRow(d: LabelData)
    ensures var col := Column(Layout(d), 0);
      forall i :: 0 <= i < |col| ==> col[i] == if i == 0 then d.name else ""
  {
    var col := Column(Layout(d), 0);
    forall i | 0 <= i < |col| ensures col[i] == if i == 0 then d.name else "" {
      assert Layout(d).rows[i + 1] == DataRow(d, i);
    }
  }

  /** A record with four empty lists gets only the header row. */
  lemma EmptyRecordHeaderOnly(d: LabelData)
    requires d.properties == [] && d.all == [] && d.incoming == [] && d.outgoing == []
    ensures Layout(d).rows == [Header]
  {
  }

  /** With all = incoming ++ outgoing the sheet has at least |incoming| + |outgoing| data rows. */
  lemma RowsCoverRelationships(d: LabelData)
    requires d.all == d.incoming + d.outgoing
    ensures |Layout(d).rows| - 1 >= |d.incoming| + |d.outgoing|
  {
  }

  // ---------------------------------------------------------------------------
  // The script
  // ---------------------------------------------------------------------------

  /** `main` then `write_to_excel`: None when the catalog is empty or failed
      (no workbook is written), otherwise one sheet per label, ordered by name. */
  function Workbook(st: Store): (r: Option<seq<Sheet>>)
    requires Valid(st)
    ensures r.None? <==> Labels(st) == []
    ensures r.Some? ==> |r.value| == |Labels(st)|
    ensures r.Some? ==> exists sorted ::
      && SortedByName(sorted)
      && multiset(sorted) == multiset(Records(st, Labels(st)))
      && |sorted| == |r.value|
      && forall i :: 0 <= i < |sorted| ==> r.value[i] == Layout(sorted[i])
  {
    var labels := Labels(st);
    if labels == [] then None
    else
      var sorted := SortByName(Records(st, labels));
      assert |sorted| == |labels| by {
        assert |multiset(sorted)| == |multiset(Records(st, labels))|;
      }
      Some(seq(|sorted|, i requires 0 <= i < |sorted| => Layout(sorted[i])))
  }
}

=== FILE: text.dfy ===
/**
 The handful of Python `str` operations the three export scripts rely on:
 `sep.join(xs)`, `s.split(sep)`, `sep in s`, `s.rstrip(c)`, `s[:n]` and the
 ordering `a < b` used by `list.sort`. Strings are sequences of characters;
 Python compares and slices by code point, and so does this model.
 */
module Text {

  /** `sep` occurs in `s` starting at index `i`. */
  predicate OccursAt(s: string, sep: string, i: int)
  {
    0 <= i && i + |sep| <= |s| && s[i..i + |sep|] == sep
  }

  /** Python's `sep in s`, which is `s.find(sep) != -1`. */
  predicate Contains(s: string, sep: string)
  {
    exists i | 0 <= i <= |s| :: OccursAt(s, sep, i)
  }

  /** Python's `s.find(sep, start)`: the least index at or after `start`
      where `sep` occurs, or -1 when there is none. */
  function Find(s: string, sep: string, start: nat): (r: int)
    ensures r == -1 || (start <= r && OccursAt(s, sep, r))
    ensures r == -1 ==> forall j :: start <= j ==> !OccursAt(s, sep, j)
    ensures forall j :: start <= j < r ==> !OccursAt(s, sep, j)
    decreases |s| - start
  {
    if start + |sep| > |s| then -1
    else if s[start..start + |sep|] == sep then start
    else Find(s, sep, start + 1)
  }

  /** `sep in s` agrees with `s.find(sep) != -1`. */
  lemma ContainsIsFind(s: string, sep: string)
    ensures Contains(s, sep) <==> Find(s, sep, 0) != -1
  {
    var i := Find(s, sep, 0);
    if i != -1 {
      assert OccursAt(s, sep, i);
    }
  }

  /** Python's `sep.join(xs)`: it begins with the first piece, and `Split`
      takes it apart again. */
  function Join(xs: seq<string>, sep: string): (r: string)
    ensures |xs| > 0 ==> xs[0] <= r
  {
    if |xs| == 0 then ""
    else if |xs| == 1 then xs[0]
    else xs[0] + sep + Join(xs[1..], sep)
  }

  /** A prefix that ends before the first occurrence of `sep` holds no occurrence. */
  lemma PrefixBeforeFirst(s: string, sep: string, i: nat)
    requires |sep| > 0 && i <= |s|
    requires forall j :: 0 <= j < i ==> !OccursAt(s, sep, j)
    ensures !Contains(s[..i], sep)
  {
    var p := s[..i];
    forall j | 0 <= j <= |p| ensures !OccursAt(p, sep, j) {
      if j + |sep| <= |p| {
        assert p[j..j + |sep|] == s[j..j + |sep|];
        assert !OccursAt(s, sep, j);
      }
    }
  }

  /** Joining a non-empty tail after a head puts one separator between them. */
  lemma JoinCons(x: string, rest: seq<string>, sep: string)
    requires |rest| >= 1
    ensures Join([x] + rest, sep) == x + sep + Join(rest, sep)
  {
    assert ([x] + rest)[1..] == rest;
  }

  /** Python's `s.split(sep)`: cut at every occurrence of `sep`, scanning
      left to right. There is always at least one piece. */
  function Split(s: string, sep: string): (r: seq<string>)
    requires |sep| > 0
    ensures |r| >= 1
    ensures forall i :: 0 <= i < |r| ==> !Contains(r[i], sep)
    ensures Join(r, sep) == s
    decreases |s|
  {
    var i := Find(s, sep, 0);
    if i < 0 then
      assert s[..|s|] == s;
      PrefixBeforeFirst(s, sep, |s|);
      [s]
    else
      PrefixBeforeFirst(s, sep, i);
      var rest := Split(s[i + |sep|..], sep);
      JoinCons(s[..i], rest, sep);
      assert s[..i] + sep + s[i + |sep|..] == s by {
        assert s[i..i + |sep|] == sep;
        assert s == s[..i] + s[i..i + |sep|] + s[i + |sep|..];
      }
      [s[..i]] + rest
  }

  /** `split` cuts a string only when the separator occurs in it. */
  lemma SplitCuts(s: string, sep: string)
    requires |sep| > 0
    ensures |Split(s, sep)| > 1 <==> Contains(s, sep)
  {
    var i := Find(s, sep, 0);
    if i >= 0 {
      assert OccursAt(s, sep, i);
    } else {
      assert !Contains(s, sep);
    }
  }

  /** Joining two lists: the separator appears between them only when both are non-empty. */
  lemma {:induction false} JoinConcat(a: seq<string>, b: seq<string>, sep: string)
    ensures Join(a + b, sep) ==
      if |a| == 0 then Join(b, sep)
      else if |b| == 0 then Join(a, sep)
      else Join(a, sep) + sep + Join(b, sep)
  {
    if |a| == 0 {
      assert a + b == b;
    } else if |b| == 0 {
      assert a + b == a;
    } else if |a| == 1 {
      assert (a + b)[1..] == b;
    } else {
      assert (a + b)[1..] == a[1..] + b;
      JoinConcat(a[1..], b, sep);
    }
  }

  /** A separator of two distinct characters cannot start inside a piece and end inside the separator. */
  predicate PlainSeparator(sep: string)
  {
    |sep| == 2 && sep[0] != sep[1]
  }

  /** In `x + sep + rest` with no `sep` inside `x`, the first occurrence is the one right after `x`. */
  lemma FindAfterPiece(x: string, sep: string, rest: string)
    requires PlainSeparator(sep) && !Contains(x, sep)
    ensures Find(x + sep + rest, sep, 0) == |x|
  {
    var s := x + sep + rest;
    assert s[|x|..|x| + 2] == sep;
    assert OccursAt(s, sep, |x|);
    forall j | 0 <= j < |x| ensures !OccursAt(s, sep, j) {
      if j + 2 <= |x| {
        assert !OccursAt(x, sep, j);
        assert s[j..j + 2] == x[j..j + 2];
      } else {
        assert s[j + 1] == sep[0];
      }
    }
  }

  /** A two-character separator occurs in `x + y` only inside `x`, inside `y`,
      or across the seam. */
  lemma ConcatNoContains(x: string, y: string, sep: string)
    requires |sep| == 2 && !Contains(x, sep) && !Contains(y, sep)
    requires !(|x| > 0 && |y| > 0 && x[|x| - 1] == sep[0] && y[0] == sep[1])
    ensures !Contains(x + y, sep)
  {
    var s := x + y;
    forall j | 0 <= j <= |s| ensures !OccursAt(s, sep, j) {
      if j + 2 <= |x| {
        assert !OccursAt(x, sep, j);
        assert s[j..j + 2] == x[j..j + 2];
      } else if j >= |x| && j + 2 <= |s| {
        assert !OccursAt(y, sep, j - |x|);
        assert s[j..j + 2] == y[j - |x|..j - |x| + 2];
      } else if j + 2 <= |s| {
        assert s[j] == x[|x| - 1] && s[j + 1] == y[0];
      }
    }
  }

  /** A string shorter than the separator cannot hold it. */
  lemma ShortNoContains(s: string, sep: string)
    requires |s| < |sep|
    ensures !Contains(s, sep)
  {
  }

  /** Round trip: splitting a join recovers the pieces when no piece holds the separator. */
  lemma {:induction false} SplitJoin(xs: seq<string>, sep: string)
    requires |xs| >= 1 && PlainSeparator(sep)
    requires forall i :: 0 <= i < |xs| ==> !Contains(xs[i], sep)
    ensures Split(Join(xs, sep), sep) == xs
  {
    if |xs| == 1 {
      assert Join(xs, sep) == xs[0];
    } else {
      var x, tail := xs[0], xs[1..];
      var rest := Join(tail, sep);
      JoinCons(x, tail, sep);
      assert xs == [x] + tail;
      var s := x + sep + rest;
      FindAfterPiece(x, sep, rest);
      assert s[..|x|] == x;
      assert s[|x| + 2..] == rest;
      SplitJoin(tail, sep);
    }
  }

  /** Python's `s.rstrip(c)` for a single character: drop every trailing `c`. */
  function RStrip(s: string, c: char): (r: string)
    ensures r <= s
    ensures |r| == 0 || r[|r| - 1] != c
    ensures forall i :: |r| <= i < |s| ==> s[i] == c
  {
    if |s| > 0 && s[|s| - 1] == c then RStrip(s[..|s| - 1], c) else s
  }

  /** Stripping a single `c` put after a string that does not end in `c` gives the string back. */
  lemma RStripOne(s: string, c: char)
    requires |s| == 0 || s[|s| - 1] != c
    ensures RStrip(s + [c], c) == s
    ensures RStrip(s, c) == s
  {
    var r := RStrip(s + [c], c);
    assert r == (s + [c])[..|r|];
    assert (s + [c])[..|s|] == s;
  }

  /** Python's slice `s[:n]`. */
  function Truncate(s: string, n: nat): (r: string)
    ensures r <= s && |r| <= n
    ensures |r| == n || r == s
  {
    if |s| <= n then s else s[..n]
  }

  /** Python's `a < b` on strings: lexicographic by code point, a proper prefix first. */
  predicate Below(a: string, b: string)
  {
    |b| > 0 && (|a| == 0 || a[0] < b[0] || (a[0] == b[0] && Below(a[1..], b[1..])))
  }

  lemma {:induction false} BelowIrreflexive(a: string)
    ensures !Below(a, a)
  {
    if |a| > 0 {
      BelowIrreflexive(a[1..]);
    }
  }

  lemma {:induction false} BelowTransitive(a: string, b: string, c: string)
    requires Below(a, b) && Below(b, c)
    ensures Below(a, c)
  {
    if |a| > 0 && a[0] == b[0] && b[0] == c[0] {
      BelowTransitive(a[1..], b[1..], c[1..]);
    }
  }

  lemma {:induction false} BelowTotal(a: string, b: string)
    ensures a == b || Below(a, b) || Below(b, a)
  {
    if |a| > 0 && |b| > 0 && a[0] == b[0] {
      BelowTotal(a[1..], b[1..]);
      if a[1..] == b[1..] {
        assert a == [a[0]] + a[1..] && b == [b[0]] + b[1..];
      }
    }
  }
}

=== FILE: visualisation.dfy ===
/**
 The network-graph script (csvFileForDatabaseAndVisualization.py): the same
 discovery as the export, collected into five-column rows without node
 counts and without any error handling, then, per label, the incoming and
 outgoing columns are cut back apart on ", " and " (" into directed edges of
 a graph keyed by the ordered pair of end labels.
 */
module Visualisation {
  import opened Sequences
  import opened Text
  import opened GraphStore

  // ---------------------------------------------------------------------------
  // Row collection
  // ---------------------------------------------------------------------------

  /** One row: Label, Properties, Relationships, Incoming, Outgoing. */
  datatype VisRow = VisRow(
    name: string,
    properties: string,
    relationships: string,
    incoming: string,
    outgoing: string)

  /** A per-label query failed somewhere in the label loop. */
  predicate SomeLabelFails(st: Store, labels: seq<string>)
  {
    exists l :: l in labels &&
      (PropertyKeys(l) in st.failing || IncomingRels(l) in st.failing || OutgoingRels(l) in st.failing)
  }

  /** For a single label, "some label fails" is one of its three queries failing. */
  lemma OneLabelFails(st: Store, lbl: string)
    ensures SomeLabelFails(st, [lbl]) <==>
      PropertyKeys(lbl) in st.failing || IncomingRels(lbl) in st.failing || OutgoingRels(lbl) in st.failing
  {
    assert lbl in [lbl];
  }

  /** The row collected for `lbl`: its distinct properties and its incoming,
      outgoing and combined relationship entries, each joined with ", ". */
  predicate Collected(st: Store, lbl: string, row: VisRow)
    requires Valid(st)
  {
    var ins := FormatAll(Relationships(st.graph, lbl, Incoming));
    var outs := FormatAll(Relationships(st.graph, lbl, Outgoing));
    && row.name == lbl
    && row.properties == Join(Properties(st.graph, lbl), LabelSep)
    && row.relationships == Join(ins + outs, LabelSep)
    && row.incoming == Join(ins, LabelSep)
    && row.outgoing == Join(outs, LabelSep)
  }

  /** The row for one label; None when one of its queries raises. */
  function RowFor(st: Store, lbl: string): (r: Option<VisRow>)
    requires Valid(st)
    ensures r.None? <==> SomeLabelFails(st, [lbl])
    ensures r.Some? ==> Collected(st, lbl, r.value)
  {
    OneLabelFails(st, lbl);
    var props := RunProperties(st, lbl);
    var ins := RunRelationships(st, lbl, Incoming);
    var outs := RunRelationships(st, lbl, Outgoing);
    if props.None? || ins.None? || outs.None? then None
    else
      var i, o := ins.value, outs.value;
      Some(VisRow(lbl, Join(props.value, LabelSep), Join(i + o, LabelSep), Join(i, LabelSep), Join(o, LabelSep)))
  }

  /** The label loop: any failing query ends the run. */
  function RowsFor(st: Store, labels: seq<string>): (r: Option<seq<VisRow>>)
    requires Valid(st)
    ensures r.None? <==> SomeLabelFails(st, labels)
    ensures r.Some? ==> |r.value| == |labels|
    ensures r.Some? ==> forall i :: 0 <= i < |labels| ==> Collected(st, labels[i], r.value[i])
  {
    if |labels| == 0 then Some([])
    else
      FailsAtHeadOrRest(st, labels);
      match (RowFor(st, labels[0]), RowsFor(st, labels[1..]))
      case (Some(row), Some(rest)) => Some([row] + rest)
      case _ => None
  }

  /** Some label of a non-empty list fails exactly when its first label or one of the others does. */
  lemma FailsAtHeadOrRest(st: Store, labels: seq<string>)
    requires |labels| > 0
    ensures SomeLabelFails(st, labels) <==> SomeLabelFails(st, [labels[0]]) || SomeLabelFails(st, labels[1..])
  {
    assert forall l :: l in labels <==> l == labels[0] || l in labels[1..];
    assert labels[0] in [labels[0]];
  }

  /** The data collected before plotting: None when the catalog query or any
      per-label query fails, since nothing in the script catches the fault. */
  function Collect(st: Store): (r: Option<seq<VisRow>>)
    requires Valid(st)
    ensures r.None? <==> LabelCatalog in st.failing || SomeLabelFails(st, Catalog(st.graph))
    ensures r.Some? ==> |r.value| == |Catalog(st.graph)|
    ensures r.Some? ==> forall i :: 0 <= i < |r.value| ==> Collected(st, Catalog(st.graph)[i], r.value[i])
  {
    match RunCatalog(st)
    case None => None
    case Some(labels) => RowsFor(st, labels)
  }

  // ---------------------------------------------------------------------------
  // Edge parsing
  // ---------------------------------------------------------------------------

  /** A directed edge between two label names, with its attributes. */
  datatype Edge = Edge(from: string, to: string, relType: string, direction: Direction)

  /** What one ", "-separated piece of a relationship column yields. */
  datatype PieceResult = NoEdge | Parsed(relType: string, connected: string) | UnpackError

  /** The pieces of a column: its ", "-separated parts; an empty cell reads back
      as a missing value and has none. */
  function Pieces(column: string): seq<string>
  {
    if column == "" then [] else Split(column, LabelSep)
  }

  /** The pieces of a non-empty column join back to it, and none of them holds
      the separator; an empty column has no pieces. */
  lemma PiecesJoin(column: string)
    ensures column == "" <==> Pieces(column) == []
    ensures column != "" ==> Join(Pieces(column), LabelSep) == column
    ensures forall i :: 0 <= i < |Pieces(column)| ==> !Contains(Pieces(column)[i], LabelSep)
  {
  }

  /** One piece: no edge without " ("; with exactly one " (" the text before it
      is the type and the text after it, less its trailing ')'s, the connected
      label; with more, the two-way unpack raises. */
  function ParsePiece(piece: string): (r: PieceResult)
    ensures r.NoEdge? <==> !Contains(piece, OpenParen)
    ensures r.UnpackError? <==> |Split(piece, OpenParen)| > 2
    ensures r.Parsed? <==> |Split(piece, OpenParen)| == 2
  {
    SplitCuts(piece, OpenParen);
    if !Contains(piece, OpenParen) then NoEdge
    else
      var parts := Split(piece, OpenParen);
      if |parts| != 2 then UnpackError
      else Parsed(parts[0], RStrip(parts[1], ')'))
  }

  /** A parsed piece is its type, " (", and a rest that strips to the
      connected label, with no other " (" on either side. */
  lemma ParsedPieceCuts(piece: string)
    requires ParsePiece(piece).Parsed?
    ensures var r := ParsePiece(piece);
      exists rest ::
        && piece == r.relType + OpenParen + rest
        && !Contains(r.relType, OpenParen) && !Contains(rest, OpenParen)
        && r.connected == RStrip(rest, ')')
  {
    var parts := Split(piece, OpenParen);
    JoinCons(parts[0], parts[1..], OpenParen);
    assert parts[1..] == [parts[1]];
    assert piece == parts[0] + OpenParen + parts[1];
  }

  /** The edge a parsed piece adds: into the label for the incoming column,
      out of it for the outgoing column. */
  function EdgeFor(lbl: string, dir: Direction, relType: string, connected: string): (e: Edge)
    ensures Key(e) == if dir == Incoming then (connected, lbl) else (lbl, connected)
    ensures Data(e) == EdgeData(relType, dir)
  {
    match dir
    case Incoming => Edge(connected, lbl, relType, Incoming)
    case Outgoing => Edge(lbl, connected, relType, Outgoing)
  }

  /** The edge a piece yields, if it parses. */
  function PieceEdge(lbl: string, piece: string, dir: Direction): Edge
    requires ParsePiece(piece).Parsed?
  {
    EdgeFor(lbl, dir, ParsePiece(piece).relType, ParsePiece(piece).connected)
  }

  /** The edges of a list of pieces, in order; None when one of them raises. */
  function PieceEdges(lbl: string, pieces: seq<string>, dir: Direction): (r: Option<seq<Edge>>)
    ensures r.None? <==> exists p :: p in pieces && ParsePiece(p).UnpackError?
    ensures r.Some? ==> |r.value| <= |pieces|
    ensures r.Some? ==> forall e :: e in r.value <==>
      exists p :: p in pieces && ParsePiece(p).Parsed? && e == PieceEdge(lbl, p, dir)
  {
    if |pieces| == 0 then Some([])
    else
      assert forall p :: p in pieces <==> p == pieces[0] || p in pieces[1..];
      var head := ParsePiece(pieces[0]);
      var rest := PieceEdges(lbl, pieces[1..], dir);
      if head.UnpackError? || rest.None? then None
      else
        var es := if head.Parsed? then [PieceEdge(lbl, pieces[0], dir)] else [];
        Some(es + rest.value)
  }

  /** The edges of one row: its incoming column first, then its outgoing column. */
  function RowEdges(row: VisRow): Option<seq<Edge>>
  {
    match (PieceEdges(row.name, Pieces(row.incoming), Incoming), PieceEdges(row.name, Pieces(row.outgoing), Outgoing))
    case (Some(ins), Some(outs)) => Some(ins + outs)
    case _ => None
  }

  /** A row fails to parse exactly when a piece of either column has more than one " (". */
  lemma RowEdgesFail(row: VisRow)
    ensures RowEdges(row).None? <==>
      exists p :: (p in Pieces(row.incoming) || p in Pieces(row.outgoing)) && ParsePiece(p).UnpackError?
  {
    var ins := PieceEdges(row.name, Pieces(row.incoming), Incoming);
    var outs := PieceEdges(row.name, Pieces(row.outgoing), Outgoing);
    assert RowEdges(row).None? <==> ins.None? || outs.None?;
  }

  /** A row's edges come from exactly the parsing pieces of its two columns. */
  lemma RowEdgesMembers(row: VisRow)
    requires RowEdges(row).Some?
    ensures forall e :: e in RowEdges(row).value <==>
      || (exists p :: p in Pieces(row.incoming) && ParsePiece(p).Parsed? && e == PieceEdge(row.name, p, Incoming))
      || (exists p :: p in Pieces(row.outgoing) && ParsePiece(p).Parsed? && e == PieceEdge(row.name, p, Outgoing))
  {
    var ins := PieceEdges(row.name, Pieces(row.incoming), Incoming);
    var outs := PieceEdges(row.name, Pieces(row.outgoing), Outgoing);
    assert RowEdges(row).value == ins.value + outs.value;
  }

  // ---------------------------------------------------------------------------
  // The directed graph: one edge per ordered pair of end labels
  // ---------------------------------------------------------------------------

  datatype EdgeData = EdgeData(relType: string, direction: Direction)

  type DiGraph = map<(string, string), EdgeData>

  function Key(e: Edge): (string, string)
  {
    (e.from, e.to)
  }

  function Data(e: Edge): EdgeData
  {
    EdgeData(e.relType, e.direction)
  }

  /** `add_edge` for every edge in turn: an edge for a pair already present
      overwrites its type and direction. */
  function AddEdges(g: DiGraph, es: seq<Edge>): (r: DiGraph)
    ensures r.Keys == g.Keys + set e | e in es :: Key(e)
    decreases |es|
  {
    if |es| == 0 then g
    else
      assert forall e :: e in es <==> e == es[0] || e in es[1..];
      AddEdges(g[Key(es[0]) := Data(es[0])], es[1..])
  }

  /** Edges for other pairs leave a pair's attributes alone. */
  lemma {:induction false} AddEdgesElsewhere(g: DiGraph, es: seq<Edge>, k: (string, string))
    requires k in g
    requires forall e :: e in es ==> Key(e) != k
    ensures AddEdges(g, es)[k] == g[k]
    decreases |es|
  {
    if |es| > 0 {
      assert es[0] in es;
      assert forall e :: e in es[1..] ==> e in es;
      AddEdgesElsewhere(g[Key(es[0]) := Data(es[0])], es[1..], k);
    }
  }

  /** The last edge for a pair decides its type and direction. */
  lemma {:induction false} LastEdgeWins(g: DiGraph, es: seq<Edge>, i: nat)
    requires i < |es|
    requires forall j :: i < j < |es| ==> Key(es[j]) != Key(es[i])
    ensures AddEdges(g, es)[Key(es[i])] == Data(es[i])
    decreases |es|
  {
    var g' := g[Key(es[0]) := Data(es[0])];
    if i == 0 {
      forall e | e in es[1..] ensures Key(e) != Key(es[0]) {
        var j :| 0 <= j < |es[1..]| && es[1..][j] == e;
        assert es[j + 1] == e;
      }
      AddEdgesElsewhere(g', es[1..], Key(es[0]));
    } else {
      assert es[1..][i - 1] == es[i];
      forall j | i - 1 < j < |es[1..]| ensures Key(es[1..][j]) != Key(es[1..][i - 1]) {
        assert es[1..][j] == es[j + 1];
      }
      LastEdgeWins(g', es[1..], i - 1);
    }
  }

  /** The graph of one row, or None when parsing raises. */
  function LabelGraph(row: VisRow): (r: Option<DiGraph>)
    ensures r.None? <==> RowEdges(row).None?
    ensures r.Some? ==> r.value.Keys == set e | e in RowEdges(row).value :: Key(e)
  {
    match RowEdges(row)
    case None => None
    case Some(es) => Some(AddEdges(map[], es))
  }

  // ---------------------------------------------------------------------------
  // The plotting loop
  // ---------------------------------------------------------------------------

  /** One saved image: the label and the graph drawn for it. */
  datatype Picture = Picture(name: string, graph: DiGraph)

  /** The images saved, and whether a parse error ended the loop early. */
  datatype PlotRun = PlotRun(saved: seq<Picture>, aborted: bool)

  /** The per-label loop over labels already parsed: each image is saved in
      turn, and the first label whose parse raised ends the loop. */
  function SaveUntilFailure(parsed: seq<(string, Option<DiGraph>)>): (r: PlotRun)
    ensures |r.saved| <= |parsed|
    ensures forall i :: 0 <= i < |r.saved| ==> parsed[i] == (r.saved[i].name, Some(r.saved[i].graph))
    ensures !r.aborted <==> |r.saved| == |parsed|
    ensures r.aborted ==> parsed[|r.saved|].1.None?
  {
    if |parsed| == 0 then PlotRun([], false)
    else
      match parsed[0].1
      case None => PlotRun([], true)
      case Some(g) =>
        var rest := SaveUntilFailure(parsed[1..]);
        PlotRun([Picture(parsed[0].0, g)] + rest.saved, rest.aborted)
  }

  /** The plotting loop: each label's image is saved before the next label is
      parsed, so a raising row keeps the images of the rows before it. */
  function Plot(rows: seq<VisRow>): (r: PlotRun)
    ensures |r.saved| <= |rows|
    ensures forall i :: 0 <= i < |r.saved| ==>
      r.saved[i].name == rows[i].name && LabelGraph(rows[i]) == Some(r.saved[i].graph)
    ensures !r.aborted <==> |r.saved| == |rows|
    ensures r.aborted ==> LabelGraph(rows[|r.saved|]).None?
  {
    SaveUntilFailure(seq(|rows|, i requires 0 <= i < |rows| => (rows[i].name, LabelGraph(rows[i]))))
  }

  /** The whole script: collection, then plotting. A failing query saves no
      image; otherwise the images follow the catalog, one per label, until the
      first label whose parse raises. */
  function Script(st: Store): (r: PlotRun)
    requires Valid(st)
    ensures LabelCatalog in st.failing || SomeLabelFails(st, Catalog(st.graph)) ==> r == PlotRun([], true)
    ensures |r.saved| <= |Catalog(st.graph)|
    ensures forall i :: 0 <= i < |r.saved| ==> r.saved[i].name == Catalog(st.graph)[i]
    ensures !r.aborted ==> |r.saved| == |Catalog(st.graph)|
    ensures LabelCatalog !in st.failing && !SomeLabelFails(st, Catalog(st.graph)) ==>
      Collect(st).Some? && r == Plot(Collect(st).value)
  {
    match Collect(st)
    case None => PlotRun([], true)
    case Some(rows) => Plot(rows)
  }

  // ---------------------------------------------------------------------------
  // What survives the text round trip
  // ---------------------------------------------------------------------------

  /** Holds neither separator the parser cuts on. */
  predicate Plain(s: string)
  {
    !Contains(s, LabelSep) && !Contains(s, OpenParen)
  }

  /** A relationship type the parser gives back intact: plain, and not ending
      in ',' (which would make ", " with the space that follows it). */
  predicate PlainType(t: string)
  {
    Plain(t) && (|t| == 0 || t[|t| - 1] != ',')
  }

  /** A label the parser gives back intact: plain, and not ending in ')'
      (which `rstrip(")")` would remove). */
  predicate PlainLabel(a: string)
  {
    Plain(a) && (|a| == 0 || a[|a| - 1] != ')')
  }

  /** A piece with exactly one " (" is cut into the text on either side of it. */
  lemma SplitHead(t: string, x: string)
    requires !Contains(t, OpenParen) && !Contains(x, OpenParen)
    ensures Split(t + OpenParen + x, OpenParen) == [t, x]
  {
    JoinCons(t, [x], OpenParen);
    assert [t] + [x] == [t, x];
    SplitJoin([t, x], OpenParen);
  }

  /** A piece with exactly one " (" parses to the text on either side of it. */
  lemma ParseHead(t: string, x: string)
    requires !Contains(t, OpenParen) && !Contains(x, OpenParen)
    ensures ParsePiece(t + OpenParen + x) == Parsed(t, RStrip(x, ')'))
  {
    var piece := t + OpenParen + x;
    SplitHead(t, x);
    SplitCuts(piece, OpenParen);
  }

  /** A piece without " (" adds no edge. */
  lemma PlainPiece(s: string)
    requires !Contains(s, OpenParen)
    ensures ParsePiece(s) == NoEdge
  {
  }

  /** `a + ")"` holds no separator when `a` is plain. */
  lemma ClosedPlain(a: string)
    requires Plain(a)
    ensures Plain(a + ")")
  {
    ShortNoContains(")", LabelSep);
    ShortNoContains(")", OpenParen);
    ConcatNoContains(a, ")", LabelSep);
    ConcatNoContains(a, ")", OpenParen);
  }

  /** `t + " (" + a` holds no ", " when the type and label are plain. */
  lemma HeadHasNoComma(t: string, a: string)
    requires PlainType(t) && Plain(a)
    ensures !Contains(t + OpenParen + a, LabelSep)
  {
    assert OpenParen[1] != LabelSep[1];
    assert !OccursAt(OpenParen, LabelSep, 0);
    assert !Contains(OpenParen, LabelSep);
    ConcatNoContains(t, OpenParen, LabelSep);
    ConcatNoContains(t + OpenParen, a, LabelSep);
  }

  /** A single-label entry with a plain type and label is one piece of its
      column and parses back to its type and label. */
  lemma EntryRoundTrip(t: string, a: string)
    requires PlainType(t) && PlainLabel(a)
    ensures Format(RelEntry(t, [a])) == t + OpenParen + a + ")"
    ensures !Contains(Format(RelEntry(t, [a])), LabelSep)
    ensures ParsePiece(Format(RelEntry(t, [a]))) == Parsed(t, a)
  {
    ClosedPlain(a);
    HeadHasNoComma(t, a + ")");
    assert t + OpenParen + (a + ")") == t + OpenParen + a + ")";
    ParseHead(t, a + ")");
    RStripOne(a, ')');
  }

  /** The edges of a parsing piece followed by more pieces. */
  lemma PieceEdgesCons(lbl: string, p: string, rest: seq<string>, dir: Direction, es: seq<Edge>)
    requires ParsePiece(p).Parsed? && PieceEdges(lbl, rest, dir) == Some(es)
    ensures PieceEdges(lbl, [p] + rest, dir) == Some([PieceEdge(lbl, p, dir)] + es)
  {
    assert ([p] + rest)[0] == p;
    assert ([p] + rest)[1..] == rest;
  }

  /** Pieces that all lack " (" add no edge. */
  lemma {:induction false} NoEdgePieces(lbl: string, pieces: seq<string>, dir: Direction)
    requires forall i :: 0 <= i < |pieces| ==> !Contains(pieces[i], OpenParen)
    ensures PieceEdges(lbl, pieces, dir) == Some([])
    decreases |pieces|
  {
    if |pieces| > 0 {
      NoEdgePieces(lbl, pieces[1..], dir);
    }
  }

  /** The ", "-pieces of a multi-label entry: the type with the first label,
      the middle labels, and the last label with the closing parenthesis. */
  function MultiLabelPieces(t: string, labels: seq<string>): seq<string>
    requires |labels| >= 2
  {
    [t + OpenParen + labels[0]] + labels[1..|labels| - 1] + [labels[|labels| - 1] + ")"]
  }

  /** Closing the last piece of a list closes the joined text. */
  lemma JoinCloseLast(xs: seq<string>, last: string)
    ensures Join(xs + [last + ")"], LabelSep) == Join(xs + [last], LabelSep) + ")"
  {
    JoinConcat(xs, [last], LabelSep);
    JoinConcat(xs, [last + ")"], LabelSep);
  }

  lemma MultiLabelJoin(t: string, labels: seq<string>)
    requires |labels| >= 2
    ensures Join(MultiLabelPieces(t, labels), LabelSep) == Format(RelEntry(t, labels))
  {
    var n := |labels|;
    var head, mid, last := t + OpenParen + labels[0], labels[1..n - 1], labels[n - 1];
    var closed := mid + [last + ")"];
    assert labels[1..] == mid + [last];
    JoinCloseLast(mid, last);
    assert Join(labels, LabelSep) == labels[0] + LabelSep + Join(labels[1..], LabelSep) by {
      JoinCons(labels[0], labels[1..], LabelSep);
      assert labels == [labels[0]] + labels[1..];
    }
    assert MultiLabelPieces(t, labels) == [head] + closed;
    JoinCons(head, closed, LabelSep);
  }

  lemma MultiLabelSplit(t: string, labels: seq<string>)
    requires |labels| >= 2 && PlainType(t)
    requires forall i :: 0 <= i < |labels| ==> PlainLabel(labels[i])
    ensures Pieces(Format(RelEntry(t, labels))) == MultiLabelPieces(t, labels)
  {
    var n := |labels|;
    var pieces := MultiLabelPieces(t, labels);
    MultiLabelJoin(t, labels);
    HeadHasNoComma(t, labels[0]);
    ClosedPlain(labels[n - 1]);
    forall i | 0 <= i < |pieces| ensures !Contains(pieces[i], LabelSep) {
      if 0 < i < n - 1 {
        assert pieces[i] == labels[1..n - 1][i - 1] == labels[i];
      }
    }
    SplitJoin(pieces, LabelSep);
    assert |Format(RelEntry(t, labels))| > 0;
  }

  /** Quirk: a multi-label entry, `T (A, B, ...)`, is cut at every ", " of its
      label list; only the first label still follows a " (", so the node's
      other labels get no edge. */
  lemma MultiLabelKeepsFirst(lbl: string, t: string, labels: seq<string>, dir: Direction)
    requires |labels| >= 2 && PlainType(t)
    requires forall i :: 0 <= i < |labels| ==> PlainLabel(labels[i])
    ensures Pieces(Format(RelEntry(t, labels))) ==
      [t + OpenParen + labels[0]] + labels[1..|labels| - 1] + [labels[|labels| - 1] + ")"]
    ensures PieceEdges(lbl, Pieces(Format(RelEntry(t, labels))), dir) ==
      Some([EdgeFor(lbl, dir, t, labels[0])])
  {
    var pieces := MultiLabelPieces(t, labels);
    MultiLabelSplit(t, labels);
    var head, tail := pieces[0], pieces[1..];
    assert pieces == [head] + tail;
    ParseHead(t, labels[0]);
    RStripOne(labels[0], ')');
    assert ParsePiece(head) == Parsed(t, labels[0]);
    MultiLabelTail(lbl, t, labels, dir);
    PieceEdgesCons(lbl, head, tail, dir, []);
    assert [PieceEdge(lbl, head, dir)] + [] == [EdgeFor(lbl, dir, t, labels[0])];
  }

  /** Past the first piece of a multi-label entry no piece holds " (". */
  lemma MultiLabelTail(lbl: string, t: string, labels: seq<string>, dir: Direction)
    requires |labels| >= 2
    requires forall i :: 0 <= i < |labels| ==> PlainLabel(labels[i])
    ensures PieceEdges(lbl, MultiLabelPieces(t, labels)[1..], dir) == Some([])
  {
    var n := |labels|;
    var tail := MultiLabelPieces(t, labels)[1..];
    assert tail == labels[1..n - 1] + [labels[n - 1] + ")"];
    ClosedPlain(labels[n - 1]);
    forall i | 0 <= i < |tail| ensures !Contains(tail[i], OpenParen) {
      if i < n - 2 {
        assert tail[i] == labels[i + 1];
      }
    }
    NoEdgePieces(lbl, tail, dir);
  }

  /** Quirk: a connected node without labels gives the entry `T ()`; its piece
      parses, and `rstrip` leaves an empty label, so an edge to or from a node
      named "" is added. */
  lemma UnlabeledNodeEdge(lbl: string, t: string, dir: Direction)
    requires PlainType(t)
    ensures Format(RelEntry(t, [])) == t + OpenParen + ")"
    ensures PieceEdges(lbl, Pieces(Format(RelEntry(t, []))), dir) == Some([EdgeFor(lbl, dir, t, "")])
  {
    assert Format(RelEntry(t, [])) == Format(RelEntry(t, [""])) == t + OpenParen + ")";
    ShortNoContains("", LabelSep);
    ShortNoContains("", OpenParen);
    SingleEntryColumn(lbl, t, "", dir);
  }

  /** The intended expansion adds no edge for an entry without labels. */
  lemma UnlabeledEntryNoEdge(lbl: string, t: string, dir: Direction)
    ensures EntryEdges(lbl, [RelEntry(t, [])], dir) == []
  {
  }

  /** Quirk: a relationship type ending in ',' is cut off from its labels, and
      neither part holds " (", so the entry adds no edge at all. */
  lemma TrailingCommaTypeLost(lbl: string, t: string, a: string, dir: Direction)
    requires Plain(t) && (|t| == 0 || t[|t| - 1] != ',') && PlainLabel(a)
    ensures PieceEdges(lbl, Pieces(Format(RelEntry(t + ",", [a]))), dir) == Some([])
  {
    var tail := "(" + a + ")";
    CommaTypeText(t, a);
    ParenthesisedPlain(a);
    JoinCons(t, [tail], LabelSep);
    SplitJoin([t, tail], LabelSep);
    NoEdgePieces(lbl, [t, tail], dir);
  }

  /** The text of a single-label entry whose type ends in ','. */
  lemma CommaTypeText(t: string, a: string)
    ensures Format(RelEntry(t + ",", [a])) == t + LabelSep + ("(" + a + ")")
  {
    assert Join([a], LabelSep) == a;
  }

  /** A plain label in parentheses holds neither separator. */
  lemma ParenthesisedPlain(a: string)
    requires PlainLabel(a)
    ensures Plain("(" + a + ")")
  {
    ClosedPlain(a);
    assert !Contains("(", LabelSep) && !Contains("(", OpenParen);
    ConcatNoContains("(", a + ")", LabelSep);
    ConcatNoContains("(", a + ")", OpenParen);
    assert "(" + (a + ")") == "(" + a + ")";
  }

  /** A label containing " (" makes its entry's piece raise. */
  lemma ParenInLabelRaises(t: string, a: string)
    requires !Contains(t, OpenParen) && Contains(a, OpenParen)
    ensures ParsePiece(t + OpenParen + a + ")").UnpackError?
  {
    var rest := a + ")";
    assert t + OpenParen + a + ")" == t + OpenParen + rest;
    FindAfterPiece(t, OpenParen, rest);
    var s := t + OpenParen + rest;
    assert s[..|t|] == t;
    assert s[|t| + 2..] == rest;
    assert Split(s, OpenParen) == [t] + Split(rest, OpenParen);
    var j :| 0 <= j <= |a| && OccursAt(a, OpenParen, j);
    assert rest[j..j + 2] == a[j..j + 2];
    assert OccursAt(rest, OpenParen, j);
    SplitCuts(rest, OpenParen);
  }

  /** The column of one entry whose label holds " (" but no ", ": the entry is
      a single piece, and that piece makes the two-way unpack raise. */
  lemma ParenInLabelColumnRaises(lbl: string, t: string, a: string, dir: Direction)
    requires PlainType(t) && !Contains(a, LabelSep) && Contains(a, OpenParen)
    ensures PieceEdges(lbl, Pieces(Format(RelEntry(t, [a]))), dir).None?
  {
    var entry := t + OpenParen + a + ")";
    assert Format(RelEntry(t, [a])) == entry;
    assert !Contains(entry, LabelSep) by {
      assert OpenParen[1] != LabelSep[1];
      assert !OccursAt(OpenParen, LabelSep, 0);
      assert !Contains(OpenParen, LabelSep);
      ShortNoContains(")", LabelSep);
      ConcatNoContains(t, OpenParen, LabelSep);
      ConcatNoContains(t + OpenParen, a, LabelSep);
      ConcatNoContains(t + OpenParen + a, ")", LabelSep);
    }
    ParenInLabelRaises(t, a);
    SplitJoin([entry], LabelSep);
    assert Pieces(entry) == [entry];
    assert entry in Pieces(entry);
  }

  /** A single plain entry in a column adds exactly its one edge. */
  lemma SingleEntryColumn(lbl: string, t: string, a: string, dir: Direction)
    requires PlainType(t) && PlainLabel(a)
    ensures PieceEdges(lbl, Pieces(Format(RelEntry(t, [a]))), dir) == Some([EdgeFor(lbl, dir, t, a)])
  {
    var entry := Format(RelEntry(t, [a]));
    EntryRoundTrip(t, a);
    assert |entry| > 0;
    SplitJoin([entry], LabelSep);
    assert Pieces(entry) == [entry];
    NoEdgePieces(lbl, [], dir);
    PieceEdgesCons(lbl, entry, [], dir, []);
    assert [entry] + [] == [entry];
    assert [PieceEdge(lbl, entry, dir)] + [] == [PieceEdge(lbl, entry, dir)];
    assert PieceEdge(lbl, entry, dir) == EdgeFor(lbl, dir, t, a);
  }

  /** Quirk: a self-loop entry appears in both columns; the outgoing edge for
      the pair (label, label) comes last and overwrites the incoming one. */
  lemma SelfLoopDrawnOutgoing(row: VisRow, t: string)
    requires PlainType(t) && PlainLabel(row.name)
    requires row.incoming == Format(RelEntry(t, [row.name]))
    requires row.outgoing == Format(RelEntry(t, [row.name]))
    ensures LabelGraph(row) == Some(map[(row.name, row.name) := EdgeData(t, Outgoing)])
  {
    var ein := Edge(row.name, row.name, t, Incoming);
    var eout := Edge(row.name, row.name, t, Outgoing);
    SingleEntryColumn(row.name, t, row.name, Incoming);
    SingleEntryColumn(row.name, t, row.name, Outgoing);
    assert [ein] + [eout] == [ein, eout];
    assert RowEdges(row) == Some([ein, eout]);
    PairOverwritten(ein, eout);
  }

  /** Two edges for one pair leave the second's attributes. */
  lemma PairOverwritten(e1: Edge, e2: Edge)
    requires Key(e1) == Key(e2)
    ensures AddEdges(map[], [e1, e2]) == map[Key(e2) := Data(e2)]
  {
    assert [e1, e2][1..] == [e2];
    assert [e2][1..] == [];
    var g1 := map[Key(e1) := Data(e1)];
    assert AddEdges(map[], [e1, e2]) == AddEdges(g1, [e2]);
    assert AddEdges(g1, [e2]) == AddEdges(g1[Key(e2) := Data(e2)], []);
    assert g1[Key(e2) := Data(e2)] == map[Key(e2) := Data(e2)];
  }

  // ---------------------------------------------------------------------------
  // The per-label expansion the plot is meant to show
  // ---------------------------------------------------------------------------

  /** One edge per label of one entry's connected node. */
  function LabelEdges(lbl: string, dir: Direction, t: string, labels: seq<string>): (r: seq<Edge>)
    ensures |r| == |labels|
    ensures forall i :: 0 <= i < |labels| ==> r[i] == EdgeFor(lbl, dir, t, labels[i])
  {
    seq(|labels|, i requires 0 <= i < |labels| => EdgeFor(lbl, dir, t, labels[i]))
  }

  /** Every entry expanded to one edge per connected label, entries in order:
      the structured counterpart of `PieceEdges` that loses no label. */
  function EntryEdges(lbl: string, es: seq<RelEntry>, dir: Direction): (r: seq<Edge>)
    ensures forall e :: e in r <==>
      exists en, a :: en in es && a in en.connected && e == EdgeFor(lbl, dir, en.relType, a)
  {
    if |es| == 0 then []
    else
      assert forall en :: en in es <==> en == es[0] || en in es[1..];
      var head := LabelEdges(lbl, dir, es[0].relType, es[0].connected);
      assert forall e :: e in head <==> exists a :: a in es[0].connected && e == EdgeFor(lbl, dir, es[0].relType, a) by {
        forall e | e in head ensures exists a :: a in es[0].connected && e == EdgeFor(lbl, dir, es[0].relType, a) {
          var i :| 0 <= i < |head| && head[i] == e;
          assert es[0].connected[i] in es[0].connected;
        }
      }
      head + EntryEdges(lbl, es[1..], dir)
  }

  /** The expansion keeps every connected label of every entry, so a
      multi-label node yields an edge for each of its labels. */
  lemma EntryEdgesKeepEveryLabel(lbl: string, es: seq<RelEntry>, dir: Direction, i: nat, a: string)
    requires i < |es| && a in es[i].connected
    ensures EdgeFor(lbl, dir, es[i].relType, a) in EntryEdges(lbl, es, dir)
  {
    assert es[i] in es;
  }

  /** The graph a label's picture is meant to show: an edge for every
      connected label of every incoming entry, then of every outgoing entry. */
  function EntryGraph(lbl: string, ins: seq<RelEntry>, outs: seq<RelEntry>): (r: DiGraph)
    ensures forall en, a :: en in ins && a in en.connected ==> (a, lbl) in r
    ensures forall en, a :: en in outs && a in en.connected ==> (lbl, a) in r
  {
    var es := EntryEdges(lbl, ins, Incoming) + EntryEdges(lbl, outs, Outgoing);
    assert forall en, a :: en in ins && a in en.connected ==> EdgeFor(lbl, Incoming, en.relType, a) in es;
    assert forall en, a :: en in outs && a in en.connected ==> EdgeFor(lbl, Outgoing, en.relType, a) in es;
    AddEdges(map[], es)
  }

  /** On single-label entries with plain text the script's graph is the
      intended one. Outside that case they can differ, for example for an
      entry with several labels or with none, a type ending in ',' or holding
      ", " or " (", and a label ending in ')' or holding ", " or " (". */
  lemma LabelGraphAgrees(row: VisRow, ins: seq<RelEntry>, outs: seq<RelEntry>)
    requires forall i :: 0 <= i < |ins| ==>
      |ins[i].connected| == 1 && PlainType(ins[i].relType) && PlainLabel(ins[i].connected[0])
    requires forall i :: 0 <= i < |outs| ==>
      |outs[i].connected| == 1 && PlainType(outs[i].relType) && PlainLabel(outs[i].connected[0])
    requires row.incoming == Join(FormatAll(ins), LabelSep)
    requires row.outgoing == Join(FormatAll(outs), LabelSep)
    ensures LabelGraph(row) == Some(EntryGraph(row.name, ins, outs))
  {
    ColumnRoundTrip(row.name, ins, Incoming);
    ColumnRoundTrip(row.name, outs, Outgoing);
  }

  /** Round trip: when every entry has a single plain label and a plain type,
      parsing the joined column gives exactly the expansion of the entries. */
  lemma {:induction false} ColumnRoundTrip(lbl: string, es: seq<RelEntry>, dir: Direction)
    requires forall i :: 0 <= i < |es| ==>
      |es[i].connected| == 1 && PlainType(es[i].relType) && PlainLabel(es[i].connected[0])
    ensures PieceEdges(lbl, Pieces(Join(FormatAll(es), LabelSep)), dir) == Some(EntryEdges(lbl, es, dir))
  {
    var fs := FormatAll(es);
    if |es| == 0 {
      assert Join(fs, LabelSep) == "";
    } else {
      forall i | 0 <= i < |es| ensures !Contains(fs[i], LabelSep) && ParsePiece(fs[i]) == Parsed(es[i].relType, es[i].connected[0]) {
        assert es[i].connected == [es[i].connected[0]];
        EntryRoundTrip(es[i].relType, es[i].connected[0]);
      }
      SplitJoin(fs, LabelSep);
      assert |Join(fs, LabelSep)| >= |fs[0]| > 0 by {
        if |fs| > 1 {
          JoinCons(fs[0], fs[1..], LabelSep);
          assert fs == [fs[0]] + fs[1..];
        }
      }
      FormattedEdges(lbl, es, dir);
    }
  }

  /** The formatted entries, piece by piece, parse to their expansion. */
  lemma {:induction false} FormattedEdges(lbl: string, es: seq<RelEntry>, dir: Direction)
    requires forall i :: 0 <= i < |es| ==>
      |es[i].connected| == 1 && PlainType(es[i].relType) && PlainLabel(es[i].connected[0])
    ensures PieceEdges(lbl, FormatAll(es), dir) == Some(EntryEdges(lbl, es, dir))
    decreases |es|
  {
    if |es| > 0 {
      var fs := FormatAll(es);
      assert es[0].connected == [es[0].connected[0]];
      EntryRoundTrip(es[0].relType, es[0].connected[0]);
      assert fs[1..] == FormatAll(es[1..]);
      FormattedEdges(lbl, es[1..], dir);
      assert LabelEdges(lbl, dir, es[0].relType, es[0].connected) == [EdgeFor(lbl, dir, es[0].relType, es[0].connected[0])];
    }
  }
}
